=== FILE: README.md ===
# Seat booking administration: a Dafny model

This project models the core of a seat-booking administration tool. Organizers define events whose
seating is laid out as zones, then sections, then rows of numbered seats. Each seat has a status:
available, reserved, blocked or pending. The model covers these parts:

- **The in-memory store** (`MemStorage`). It is a class holding two insertion-ordered maps and a
  counter:
  - the `events` map is keyed by event number;
  - the `seats` map is keyed by seat id `eventId-zone-section-row-seat`;
  - `currentId` numbers new events.

  Its operations create, update and delete events, list events and seats, overwrite seat statuses,
  reset an event's seats, generate the seats of a layout, and reconcile the seats after a layout
  edit. A layout edit carries old statuses over by id.
- **The data model** and the validity its schemas check.
- **`buildUrl`**, which fills the `:name` placeholders of an API path from a parameter object.
- **The seat map's logic:**
  - splitting a row into blocks at its aisles;
  - aligning those blocks;
  - looking a position's seat up by its label;
  - the stand-in seat shown for a position that has no stored seat.
- **The event page's click handler**, which cycles a seat's status and sends a one-seat update.

The store's maps are `OrderedMap` values (a key sequence plus a map), so three behaviours of
JavaScript's `Map` carry over:
- iteration order;
- a `set` on a present key keeps that key's position;
- the last write to a key wins.

The class invariant (`StoreInvariant`) says four things:
- every seat sits under its own id, and that id is built from the seat's event and label;
- every seat belongs to a stored event;
- each event's seat ids are exactly the ids its configuration lays out;
- event ids ascend in insertion order and stay below the counter.

Every store operation keeps this invariant. The lemmas in `StoreFacts`, `SeatMap` and
`EventDetails` state what the operations mean to readers of the store.

The intended design and the code differ in the places below, and the model follows the code:
- **Names and labels.** The design asks for non-empty names and labels. The schemas
  accept any string (`LayoutExamples.RowValidity`, `LayoutExamples.EmptyConfigurationsValid`).
- **Aisle values.** The design limits aisle values to `[1, seatCount - 1]`. The schemas
  accept any numbers, and the grouping ignores out-of-range ones (`SeatMap.GroupSeats`).
- **Invalid configurations.** The design has seat generation reject an invalid
  configuration. The code has no such check, and neither does the model.
- **Writing generated seats.** The design inserts a generated seat only when its id is
  absent. The code's `Map.set` overwrites, so the last write to an id wins
  (`SeatTables.PutAllLookup`, `LayoutExamples.RepeatedRowCollapses`).
- **Status writes and the requesting user.** The design has a status write set or clear
  the requesting user. `updateSeats` writes only the status (plus a `requestedBy` field that
  neither the seat nor the request type declares), so the seat's `userId` is left as it was (`SeatTables.StatusWritten`).
- **Reset and the owner.** The design has a reset clear each seat's owner. `resetSeats`
  changes only the status and keeps `userId` (`StoreFacts.ResetMakesAvailable`).
- **Locking and atomicity.** The design asks for per-event mutual exclusion and for
  readers never to observe a half-done reconciliation. The store has no locking. Every method
  except `resetSeats` runs without an `await`, so on JavaScript's single thread it runs to
  completion. `resetSeats` awaits `getSeats` before its writes, and another request can run in
  that gap. The model treats every method, `resetSeats` included, as one atomic step.

## Model

| member | source | states |
|---|---|---|
| Decimal.NatToString | server/storage.ts:129 | `toString` of a natural number is non-empty and all digits, has two or more digits exactly when the number is at least 10, and its digits read most significant first spell the number back (`DigitsValue(s) == n`) |
| Decimal.NatToStringNoLeadingZero | server/storage.ts:129 | the text of a positive number does not start with `0` |
| Decimal.NatToStringInjective | server/storage.ts:120 | different numbers have different decimal texts, so different seat numbers and event ids give different ids |
| Decimal.NoDashInNatToString | shared/schema.ts:33 | the decimal event id never contains the `-` separator |
| Schema.ParseStatus | shared/schema.ts:107 | the status enum accepts exactly the four spellings, each as the status it spells, and rejects every other string |
| Schema.StatusRoundTrip | shared/schema.ts:41 | every status's spelling is accepted as that status |
| Layout.MakeSeatIdDeterminesNumber | server/storage.ts:119-131 | within one row, two generated seats share an id only when they have the same number, so a row never overwrites its own seats |
| Layout.RowSeatsCount | server/storage.ts:119 | a row of `n` seats generates `n` seats, all generator-shaped |
| Layout.ExpandShape | server/storage.ts:113-137 | a configuration generates exactly as many seats as the sum of its rows' `seatCount`, each an available seat of the event keyed by its label (which seats they are: `ExpandMembers`) |
| Layout.RowSeatsMembers | server/storage.ts:119-131 | a row of `n` seats generates seat `i` of that row exactly for `1 <= i <= n`, and nothing else |
| Layout.ExpandRowsMembers | server/storage.ts:118-133 | a section's rows generate a seat exactly when one of those rows generates it |
| Layout.ExpandSectionsMembers | server/storage.ts:117-134 | a zone's sections generate a seat exactly when one of those sections generates it |
| Layout.ExpandZonesMembers | server/storage.ts:116-135 | a list of zones generates a seat exactly when one of those zones generates it |
| Layout.ExpandMembers | server/storage.ts:113-137 | a seat is generated for an event exactly when it is seat `i` (`1 <= i <= seatCount`) of some row of some section of some zone of the configuration, with that zone, section and row label and that number |
| Layout.ExpandHasPosition | server/storage.ts:116-133 | every position zone/section/row/`i` with `1 <= i <= seatCount` gets its seat |
| Layout.ExpandPositionOf | server/storage.ts:116-133 | every generated seat comes from some position zone/section/row/`i` with `1 <= i <= seatCount` |
| Layout.EventIdBeforeFirstDash | shared/schema.ts:33 | the text before the first `-` of any seat id is the decimal event id |
| Layout.SeatKeyDeterminesEvent | server/storage.ts:120 | seat ids of different events never coincide, whatever the names contain |
| Layout.SeatKeyInjective | server/storage.ts:120 | within one event, labels without `-` give equal ids only when the labels are equal |
| Layout.DashedNamesCollide | server/storage.ts:120 | zone "A-B" with section "C" and zone "A" with section "B-C" give the same seat id |
| LayoutExamples.FirstSeatId | server/storage.ts:120 | seat 1 of row "1", section "A", zone "Front" of event 7 has id `7-Front-A-1-1` |
| LayoutExamples.FrontRowSeats | server/storage.ts:116-133 | a single row of three seats expands to seats 1, 2 and 3 of that row, in order |
| LayoutExamples.SeedTotal | server/routes.ts:86-133 | the seed configuration has 5+6+10+12+5+6+20+20 = 84 seats |
| LayoutExamples.SeedValid | server/routes.ts:86-133 | the seed configuration passes the configuration schemas |
| LayoutExamples.RepeatedRowCollapses | server/storage.ts:132 | two rows with the same label generate two seats but store one id, the second write replacing the first |
| LayoutExamples.EmptyConfigurationsValid | shared/schema.ts:84-96 | a configuration without zones, or with a zone whose one section has no rows, is valid and generates no seat |
| LayoutExamples.RowValidity | shared/schema.ts:78-82 | a row with no seat is invalid; a row with an empty label and arbitrary aisle numbers is valid |
| OrderedMaps.OrderedMap.Set | server/storage.ts:40 | `Map.set` stores the value under the key and leaves every other key alone; a present key keeps its position, a new key goes last |
| OrderedMaps.OrderedMap.Delete | server/storage.ts:66 | `Map.delete` removes the key and keeps every other key, in order |
| OrderedMaps.SetValues | server/storage.ts:40 | after `set`, `values()` lists a new key's value last, and a present key's value in its old place with every other value unchanged |
| OrderedMaps.DeleteValues | server/storage.ts:66 | after `delete`, `values()` is the old listing with the deleted key's value cut out and the rest in order |
| SeatTables.PutAllLookup | server/storage.ts:132 | after writing seats in order, a key is present iff it was present or written; a written key holds the last seat with that id; other keys are unchanged |
| SeatTables.PutAllFreshKeys | server/storage.ts:132 | writing seats whose ids are distinct and new appends those ids, in order, to the key order |
| SeatTables.SeatsById | server/storage.ts:140-144 | `new Map(seats.map(s => [s.id, s]))` has exactly the listed ids, each mapped to the last seat with that id |
| SeatTables.SeatsByIdOfEvent | server/storage.ts:140-144 | keying an event's listed seats by id gives exactly that event's stored entries |
| SeatTables.CarriedLast | server/storage.ts:158-163 | the seat written last under an id carries the status of the old seat with that id, if there was one |
| SeatTables.WithoutEvent | server/storage.ts:68-72 | after the cascade a key remains iff it was stored for another event, with its seat unchanged |
| SeatTables.WithoutEventListing | server/storage.ts:68-77 | after the cascade every other event's seat listing is the same list as before, order included |
| SeatTables.SeatsOfKeyOrder | server/storage.ts:77 | an event's listed seats carry exactly that event's keys, in the map's key order |
| SeatTables.ScannedStep | server/storage.ts:68-72 | visiting the next key of the walk deletes it exactly when its seat belongs to the event |
| SeatTables.ScannedAll | server/storage.ts:68-72 | walking every key and deleting the event's seats yields the table without that event's seats |
| SeatTables.FilterEvent | server/storage.ts:77 | the filtered list holds exactly the listed seats of the event |
| SeatTables.FilterEventDistinct | server/storage.ts:77 | filtering keeps ids distinct |
| SeatTables.ValuesOfWellFormed | server/storage.ts:77 | in a well-formed table the listed values carry the keys in order, and a seat is listed iff it is stored under its own id |
| SeatTables.StatusWritten | server/storage.ts:83-94 | a status write keeps every key and changes nothing of any seat but its status |
| SeatTables.WrittenList | server/storage.ts:81-96 | an update returns no more seats than ids were requested, each of the event and with the new status |
| SeatTables.StatusWrittenSameChoice | server/storage.ts:83-94 | a status write depends only on which of the event's stored seats are chosen |
| SeatTables.ResetCoversEvent | server/storage.ts:100-107 | writing available over the ids of an event's listed seats does the same as writing it over every key, so the reset reaches every stored seat of the event |
| SeatTables.ListedSeat | server/storage.ts:100 | every listed seat of an event is the stored seat under its own id |
| Storage.MergeNothing | server/storage.ts:52 | spreading an update that carries no field gives back the stored event |
| Storage.MergeIdempotent | server/storage.ts:52 | applying the same update twice gives what applying it once gives |
| Storage.MergeTwice | server/storage.ts:52 | two successive updates act as one update in which the later one's present fields win |
| Storage.PutLayoutEffect | server/storage.ts:113-137 | writing one event's layout into a table without seats of that event keeps it well formed, gives the event exactly the layout's ids and leaves every other seat unchanged |
| Storage.EventsAfterCreate | server/storage.ts:37-40 | the counter's id is unused, and storing the new event under it then incrementing keeps ids ascending and below the counter |
| Storage.EventValues | server/storage.ts:29-31 | the listed events are exactly the stored ones, in ascending id order |
| Storage.CreatePreserves | server/storage.ts:37-46 | creating an event keeps the store invariant |
| Storage.WithoutEventEffect | server/storage.ts:65-73 | removing an event's seats keeps the table well formed, leaves no seat of the event and keeps every other event's ids |
| Storage.DeletePreserves | server/storage.ts:65-73 | deleting an event and its seats keeps the store invariant |
| Storage.RegeneratePreserves | server/storage.ts:139-176 | reconciling a stored event with its new configuration keeps the store invariant |
| Storage.StatusOnlyPreserves | server/storage.ts:80-110 | writes that change only statuses keep the store invariant |
| Storage.MetadataPreserves | server/storage.ts:52-53 | changing an event's name, date or venue but not its configuration keeps the store invariant |
| Storage.UpdatePreserves | server/storage.ts:48-63 | updating a stored event keeps the store invariant, with or without a new configuration |
| Storage.PutLayout | server/storage.ts:116-136 | the zone loop writes every seat of the layout, in order, each with the status carried from the prior map |
| Storage.PutZone | server/storage.ts:117-135 | the section loop writes every seat of the zone, in order |
| Storage.PutSection | server/storage.ts:118-134 | the row loop writes every seat of the section, in order |
| Storage.PutRow | server/storage.ts:119-133 | the seat loop writes seats `1..seatCount` of the row, in order |
| Storage.RemoveEventSeats | server/storage.ts:68-72 | the deleting walk over the seat map leaves exactly the table without the event's seats |
| Storage.WriteStatuses | server/storage.ts:83-94 | the request loop keeps the key order, applies the status write, and returns the written seats in request order |
| Storage.ResetEventSeats | server/storage.ts:100-107 | the reset loop keeps the key order, makes every seat of the event available, and returns the listed seats with status available |
| Storage.MemStorage.constructor | server/storage.ts:22-26 | the store starts with both maps empty and the counter at 1 |
| Storage.MemStorage.GetEvents | server/storage.ts:29-31 | lists exactly the stored events, in ascending id order |
| Storage.MemStorage.GetEvent | server/storage.ts:33-35 | finds an event iff one is stored under the id, and that event carries the id |
| Storage.MemStorage.GetSeats | server/storage.ts:76-78 | lists exactly the stored seats of the event, each under its own id, with no id twice, in the map's key order |
| Storage.MemStorage.CreateEvent | server/storage.ts:37-46 | stores the event under the old counter value, which was unused, increments the counter, and writes the layout's seats |
| Storage.MemStorage.UpdateEvent | server/storage.ts:48-63 | an unknown id fails with "Event not found" and changes nothing; otherwise the merged event replaces the stored one, and seats are reconciled only when the update has a configuration |
| Storage.MemStorage.DeleteEvent | server/storage.ts:65-73 | removes the event and exactly its seats; the counter is unchanged |
| Storage.MemStorage.UpdateSeats | server/storage.ts:80-97 | applies the status write for the requested ids and returns the written list; events, counter and key order unchanged |
| Storage.MemStorage.ResetSeats | server/storage.ts:99-110 | makes every seat of the event available and returns the event's listed seats as available; nothing else changes |
| Storage.MemStorage.GenerateSeatsForEvent | server/storage.ts:113-137 | writes the configuration's seats, in order, over the old table |
| Storage.MemStorage.RegenerateSeatsPreservingStatus | server/storage.ts:139-176 | the seats become the old table without the event's seats, plus the new layout carrying old statuses by id |
| StoreFacts.DeletedEventHasNoSeats | server/storage.ts:65-78 | after the cascade, listing the deleted event's seats gives nothing |
| StoreFacts.DeleteKeepsOtherSeats | server/storage.ts:65-78 | deleting an event leaves every other event's listed seats as they were, the same list in the same order |
| StoreFacts.DeleteUnknownIsNoop | server/storage.ts:65-73 | deleting an id that names no event changes neither table |
| StoreFacts.RegeneratedSeat | server/storage.ts:139-176 | after reconciliation an id is present iff the new layout generates it or another event owns it; a layout seat keeps the old status of its id, else is available, and never keeps a user; other events' seats are untouched |
| StoreFacts.PutFreshValues | server/storage.ts:132 | writing seats with new, distinct ids lists the old values, then the new seats in order |
| StoreFacts.CreatedSeatsListed | server/storage.ts:113-137 | when the layout's ids are distinct, the new event lists exactly its layout's seats, in generation order, one per counted seat |
| StoreFacts.WrittenListExact | server/storage.ts:80-97 | an update returns exactly the requested, stored seats of the event, each with the new status; other-event and unknown ids are skipped |
| StoreFacts.WrittenSeatsStored | server/storage.ts:91-92 | every returned seat is what the table now holds under its id |
| StoreFacts.StatusWrittenIdempotent | server/storage.ts:80-97 | repeating an update changes nothing more |
| StoreFacts.ResetMakesAvailable | server/storage.ts:99-110 | after a reset every seat of the event is available with its user kept, and every other seat is as it was |
| Routes.IndexFrom | shared/routes.ts:103 | the search returns the first position where the placeholder occurs, or reports that it occurs nowhere |
| Routes.ReplaceFirstSplices | shared/routes.ts:104 | `replace` splices the value in at the first occurrence, keeping the text on both sides; without an occurrence it changes nothing |
| Routes.NoColonNoPlaceholder | shared/routes.ts:103 | a placeholder never occurs in text without a colon |
| Routes.BuildUrl | shared/routes.ts:99-109 | without parameters the path is returned unchanged; otherwise each entry, in order, fills its placeholder |
| Routes.SubstitutedConcat | shared/routes.ts:102-106 | entries are applied in order, each to the result of the previous ones |
| Routes.AbsentKeyUnchanged | shared/routes.ts:103 | an entry whose placeholder does not occur in the current url leaves it unchanged |
| Routes.NoPlaceholdersUnchanged | shared/routes.ts:99-109 | a path without placeholders comes back unchanged whatever the parameters |
| Routes.FillFirstOnly | shared/routes.ts:103-104 | an entry whose key has no colon replaces only the first occurrence of its placeholder, and later copies stay |
| Routes.SeatsOfSeven | shared/routes.ts:70 | `/api/events/:id/seats` with `{id: 7}` gives `/api/events/7/seats` |
| Routes.PlaceholderPrefixMatches | shared/routes.ts:103 | `:id` also matches the start of `:idx`, so `/items/:idx` with `{id: 7}` gives `/items/7x` |
| Routes.RepeatedPlaceholderOnce | shared/routes.ts:104 | `/:id/:id` with `{id: "a"}` gives `/a/:id` |
| SeatMap.GroupStep | client/src/components/SeatMap.tsx:74-80 | each pass of the loop keeps the grouping invariant: blocks and open block hold the seats seen, closed blocks end exactly at their aisle, one block per aisle seen |
| SeatMap.GroupSeats | client/src/components/SeatMap.tsx:68-81 | the blocks concatenate to 1..seatCount, none is empty, and a seat ends a block iff it is an aisle value below seatCount. There is one block more than the number of distinct such values, one block without aisles, none for zero seats |
| SeatMap.AlignmentMirror | client/src/components/SeatMap.tsx:88-94 | block `i` is aligned end exactly when block `count-1-i` is aligned start, and centred exactly when its mirror is |
| SeatMap.AlignmentEnds | client/src/components/SeatMap.tsx:88-94 | only a row of several blocks has uncentred blocks, only its first and last: the first is pushed to its end and the last to its start, both towards the middle |
| SeatMap.FindFrom | client/src/components/SeatMap.tsx:19-25 | the search returns the first index whose seat carries the position's zone, section, row and decimal number, or reports that there is none |
| SeatMap.GetSeat | client/src/components/SeatMap.tsx:15-25 | `getSeat` returns a listed seat with the position's label, or nothing exactly when no listed seat has it |
| SeatMap.GetSeatFirst | client/src/components/SeatMap.tsx:19-25 | a match preceded by no other match is the seat returned |
| SeatMap.GetSeatFindsStored | client/src/components/SeatMap.tsx:15-25 | among an event's listed seats, the lookup finds the seat stored under the position's id when that seat carries the position's label |
| SeatMap.DisplaySeat | client/src/components/SeatMap.tsx:99-107 | the seat shown for a position always carries that position's label |
| SeatMap.DisplaySeatCases | client/src/components/SeatMap.tsx:99-107 | a position shows its stored seat if one matches; otherwise it shows an available stand-in of event 0 with no user and id `temp-zone-section-row-num`. The drawn status is the status of the seat handed on |
| SeatMap.PlaceholderNeverStored | client/src/components/SeatMap.tsx:103 | no well-formed store holds a stand-in's `temp-` id, since stored ids start with a digit |
| SeatMap.SwatchDistinguishes | client/src/components/SeatMap.tsx:28-37 | available, reserved and blocked get three different colour schemes; pending is drawn like available |
| EventDetails.NextStatus | client/src/pages/EventDetails.tsx:36-42 | a click never asks for pending and always asks for a different status |
| EventDetails.ThreeClicksCycle | client/src/pages/EventDetails.tsx:36-42 | available, reserved and blocked return to themselves after exactly three clicks, not fewer |
| EventDetails.PendingFallsBack | client/src/pages/EventDetails.tsx:42 | a pending seat, missing from the table, is asked to become available |
| EventDetails.ClickTouchesOneSeat | client/src/pages/EventDetails.tsx:44-48 | serving a click changes at most the clicked seat: a stored seat of the page's event takes the next status; any other seat is unchanged |
| EventDetails.ClickStoredStep | client/src/pages/EventDetails.tsx:34-48 | a click on a stored seat of the page's event advances its status and nothing else |
| EventDetails.ThreeClicksRestore | client/src/pages/EventDetails.tsx:34-48 | three clicks on a stored, non-pending seat of the page's event give back the original table |
| EventDetails.PlaceholderClickIsNoop | client/src/components/SeatMap.tsx:102-115 | a click on a position without a stored seat sends the stand-in's id and leaves the table unchanged |

## Left out

- **Concurrency.** The store's `async`/`Promise` wrappers are dropped and its methods are modelled as synchronous. JavaScript runs them on one thread, and every method but `resetSeats` contains no `await`, so those run without interleaving.
- Storage.MemStorage.ResetSeats: an `await this.getSeats(eventId)` separates the read of the event's seats from the writes. The model merges the read and the writes into one atomic step. If a `deleteEvent` or a reconciling `updateEvent` ran in that gap, the writes would put back seats that were just removed. The store invariant (`SeatsFollowLayouts`) would then no longer hold, and the model does not capture that interleaving.
- **Loops work on values.** Each store loop runs in a module-level method on a table value, and the class method assigns the result to its field. `getEvent` and `getSeats` (server/storage.ts:33-35, 76-78) hand back the stored objects themselves, so a caller could change a stored seat or event through them; no caller in the code does, and the model returns values, so that aliasing is not modelled.
- **`deleteEvent` iteration.** The loop over `this.seats.entries()` that deletes as it goes is modelled as a walk over the key order. A JavaScript `Map` iterator is not disturbed when the current entry is deleted, and nothing is added during the walk.
- **Shared layout writer.** Seat generation and reconciliation use the same nested loops. Generation passes an empty prior map, so each seat is written as generated (`SeatTables.CarryNothing`).
- **`requestedBy`.** `updateSeats` writes a `requestedBy` field the request type never carries. It has no observable effect, so `userId` is left untouched.
- **`userId` absence.** A `null` and an absent `userId` are both `None`.
- **Explicit `undefined` in an update.** `{ ...existing, ...updates }` with a field explicitly set to `undefined` would overwrite the stored field. The model treats `EventUpdate` fields as either present or absent.
- **Number widths.** Event ids, the counter and seat counts are unbounded naturals. The 2^53 limit of JavaScript numbers is not modelled.
- **Non-integer `seatCount`.** The schema checks only `min(1)`, so a fractional value passes. Both the storage loops and the seat map use its floor. `seatCount` is a `nat` here.
- **HTTP layer.** The Express handlers in server/routes.ts are not part of this model, except the seed configuration (`LayoutExamples.Seed`). The seed's `aisleAfter` field is not part of the row type and is dropped.
- **The `api` table.** Only its paths are kept (`Routes.EventsPath` …). Its HTTP methods, response schemas and `errorSchemas` are not modelled.
- **Client data fetching.** The react-query hooks, the cache invalidation and the booking endpoints they call are not part of this model. The booking endpoints have no server implementation in the code.
- **Rendering.** JSX, tooltips, animation, the loading branch and the CSS class strings are not modelled. `SeatMap.StatusSwatch` names `getStatusColor`'s three colour schemes instead of their class strings.
- **Page plumbing.** The page id comes from `parseInt` of the route parameter; `EventDetails.ClickRequest` takes it as a natural, and `NaN` or negative ids are not modelled. The configuration editor (`JSON.parse`, `handleConfigSave`) and the reset confirmation dialog are not modelled either.
- **Search filter.** The case-insensitive search filter of the events page depends on Unicode `toLowerCase` and is not modelled.
- **Schema libraries.** The internals of zod and drizzle are not modelled. The validity predicates state what the schemas check.
- Routes.BuildUrl: values are rendered as text or as integers. `String` of a non-integer number is not modelled. `ReplaceFirst` inserts the value literally, so `$` replacement patterns in `String.replace` are not modelled. The entries are taken in the order `Object.entries` lists them. The reordering that puts integer-like keys first is left to the caller.
- Routes.FillFirstOnly: requires a key without `:`. With a colon in the key, an earlier copy of the placeholder can overlap the text before it.
- SeatMap.GetSeatFindsStored: requires the stored seat to carry the position's label. Names containing `-` can give two positions the same id (`Layout.DashedNamesCollide`).
- StoreFacts.CreatedSeatsListed: requires the layout's ids to be distinct. With repeated ids the later write wins (`LayoutExamples.RepeatedRowCollapses`).

=== FILE: decimal.dfy ===
/**
 * Decimal rendering of non-negative integers, as JavaScript's `Number.prototype.toString()`
 * and template-literal interpolation produce it for integral numbers: no sign, no leading zeros.
 */
module Decimal {

  predicate IsDigit(c: char) {
    '0' <= c <= '9'
  }

  function DigitChar(d: nat): (c: char)
    requires d < 10
    ensures IsDigit(c)
  {
    ('0' as int + d) as char
  }

  /** The number a string of decimal digits spells, most significant digit first. */
  function DigitsValue(s: string): int
    decreases |s|
  {
    if s == [] then 0 else DigitsValue(s[..|s| - 1]) * 10 + (s[|s| - 1] as int - '0' as int)
  }

  /** `String(n)` for a non-negative integer `n`: its digits, read most significant first, spell `n`. */
  function NatToString(n: nat): (s: string)
    ensures |s| >= 1
    ensures forall i :: 0 <= i < |s| ==> IsDigit(s[i])
    ensures n >= 10 <==> |s| >= 2
    ensures DigitsValue(s) == n
    decreases n
  {
    if n < 10 then
      var s := [DigitChar(n)];
      assert s[..0] == [];
      s
    else
      var p := NatToString(n / 10);
      var s := p + [DigitChar(n % 10)];
      assert s[..|s| - 1] == p;
      s
  }

  /** A positive number's rendering has no leading zero. */
  lemma {:induction false} NatToStringNoLeadingZero(n: nat)
    requires n >= 1
    ensures NatToString(n)[0] != '0'
    decreases n
  {
    if n >= 10 {
      NatToStringNoLeadingZero(n / 10);
      assert NatToString(n)[0] == NatToString(n / 10)[0];
    }
  }

  /** `String(n)` for any integer `n`: a leading minus sign for negative numbers. */
  function IntToString(n: int): (s: string)
    ensures |s| >= 1
    ensures n < 0 <==> s[0] == '-'
  {
    if n < 0 then "-" + NatToString(-n) else NatToString(n)
  }

  /** Distinct numbers have distinct decimal renderings. */
  lemma {:induction false} NatToStringInjective(a: nat, b: nat)
    requires NatToString(a) == NatToString(b)
    ensures a == b
    decreases a
  {
    var s := NatToString(a);
    if a < 10 && b < 10 {
      assert s[0] == DigitChar(a) && s[0] == DigitChar(b);
    } else if a >= 10 && b >= 10 {
      var pa, pb := NatToString(a / 10), NatToString(b / 10);
      assert s == pa + [DigitChar(a % 10)] && s == pb + [DigitChar(b % 10)];
      assert s[|s| - 1] == DigitChar(a % 10) == DigitChar(b % 10);
      assert pa == s[..|s| - 1] == pb;
      NatToStringInjective(a / 10, b / 10);
    }
  }

  /** A decimal rendering never contains the seat-id separator. */
  lemma NoDashInNatToString(n: nat)
    ensures '-' !in NatToString(n)
  {
  }
}

=== FILE: event_details.dfy ===
/**
 * The event page's click handler: the status a click on a seat asks for, the update request it
 * sends, and what that request does to the store's seat table.
 */
module EventDetails {
  import opened Wrappers
  import opened Schema
  import opened Layout
  import opened SeatTables
  import opened SeatMap

  /** The handler's lookup table; it has no entry for `pending`. */
  function CycleTable(s: SeatStatus): Option<SeatStatus> {
    match s
    case Available => Some(Reserved)
    case Reserved => Some(Blocked)
    case Blocked => Some(Available)
    case Pending => None
  }

  /** The status a click asks for: the table's entry, or `available` when it has none. */
  function NextStatus(s: SeatStatus): (r: SeatStatus)
    ensures r != Pending
    ensures r != s
  {
    CycleTable(s).GetOr(Available)
  }

  /** The cycle has length three: three clicks bring any non-pending status back. */
  lemma ThreeClicksCycle(s: SeatStatus)
    requires s != Pending
    ensures NextStatus(NextStatus(NextStatus(s))) == s
    ensures NextStatus(s) != s && NextStatus(NextStatus(s)) != s
  {
  }

  /** A pending seat is asked to become available. */
  lemma PendingFallsBack()
    ensures NextStatus(Pending) == Available
  {
  }

  /** The call the handler makes: the page's event id and an update request. */
  datatype SeatsCall = SeatsCall(eventId: nat, request: UpdateSeatStatusRequest)

  /**
   * A click on `seat` on the page of event `pageId` asks for the seat's next status for exactly
   * that one seat, and attaches no user.
   */
  function ClickRequest(pageId: nat, seat: Seat): (c: SeatsCall)
    ensures c.eventId == pageId
    ensures c.request.ids == [seat.id]
    ensures c.request.status == NextStatus(seat.status) && c.request.status != Pending
    ensures c.request.userId.None?
  {
    SeatsCall(pageId, UpdateSeatStatusRequest([seat.id], NextStatus(seat.status), None))
  }

  /** The seat table after the store serves a call. */
  function Served(entries: map<string, Seat>, c: SeatsCall): map<string, Seat> {
    StatusWritten(entries, c.eventId, c.request.ids, c.request.status)
  }

  /**
   * Serving a click changes at most the clicked seat: when it is stored for the page's event it
   * takes the next status, keeping its id, event, label and user; every other seat is as it was.
   */
  lemma {:induction false} ClickTouchesOneSeat(entries: map<string, Seat>, pageId: nat, seat: Seat)
    ensures Served(entries, ClickRequest(pageId, seat)).Keys == entries.Keys
    ensures forall k :: k in entries && k != seat.id ==> Served(entries, ClickRequest(pageId, seat))[k] == entries[k]
    ensures seat.id in entries && entries[seat.id].eventId == pageId ==>
      Served(entries, ClickRequest(pageId, seat))[seat.id] == entries[seat.id].(status := NextStatus(seat.status))
    ensures seat.id in entries && entries[seat.id].eventId != pageId ==>
      Served(entries, ClickRequest(pageId, seat))[seat.id] == entries[seat.id]
  {
  }

  /** One click on the stored seat under `k`, as the page shows it. */
  function ClickStored(entries: map<string, Seat>, pageId: nat, k: string): map<string, Seat>
    requires k in entries
  {
    Served(entries, ClickRequest(pageId, entries[k]))
  }

  /**
   * One click on a stored seat of the page's event (stored under its own id, as the store keeps
   * every seat) advances its status and nothing else.
   */
  lemma {:induction false} ClickStoredStep(entries: map<string, Seat>, pageId: nat, k: string)
    requires k in entries && entries[k].id == k && entries[k].eventId == pageId
    ensures k in ClickStored(entries, pageId, k)
    ensures ClickStored(entries, pageId, k)[k] == entries[k].(status := NextStatus(entries[k].status))
    ensures ClickStored(entries, pageId, k).Keys == entries.Keys
    ensures forall k' :: k' in entries && k' != k ==> ClickStored(entries, pageId, k)[k'] == entries[k']
  {
    ClickTouchesOneSeat(entries, pageId, entries[k]);
    assert ClickStored(entries, pageId, k) == Served(entries, ClickRequest(pageId, entries[k]));
  }

  /** Three clicks on a stored, non-pending seat of the page's event leave the table as it was. */
  lemma {:induction false} ThreeClicksRestore(entries: map<string, Seat>, pageId: nat, k: string)
    requires k in entries && entries[k].id == k && entries[k].eventId == pageId && entries[k].status != Pending
    ensures k in ClickStored(entries, pageId, k)
    ensures var once := ClickStored(entries, pageId, k);
      k in ClickStored(once, pageId, k)
      && ClickStored(ClickStored(once, pageId, k), pageId, k) == entries
  {
    var s := entries[k];
    ClickStoredStep(entries, pageId, k);
    var once := ClickStored(entries, pageId, k);
    ClickStoredStep(once, pageId, k);
    var twice := ClickStored(once, pageId, k);
    ClickStoredStep(twice, pageId, k);
    var thrice := ClickStored(twice, pageId, k);
    ThreeClicksCycle(s.status);
    assert thrice[k] == s;
    assert thrice.Keys == entries.Keys;
  }

  /**
   * A click on a position that has no stored seat sends the stand-in's `temp-…` id, which the
   * store never holds, so the table is left as it was.
   */
  lemma {:induction false} PlaceholderClickIsNoop(t: SeatTable, pageId: nat, zone: string, section: string, row: string, seatNum: nat)
    requires SeatsWellFormed(t)
    requires forall s :: s in SeatsOf(t, pageId) ==> !LabelMatches(s, zone, section, row, seatNum)
    ensures Served(t.entries, ClickRequest(pageId, DisplaySeat(SeatsOf(t, pageId), zone, section, row, seatNum))) == t.entries
  {
    DisplaySeatCases(SeatsOf(t, pageId), zone, section, row, seatNum);
    PlaceholderNeverStored(t, zone, section, row, seatNum);
    var seat := DisplaySeat(SeatsOf(t, pageId), zone, section, row, seatNum);
    ClickTouchesOneSeat(t.entries, pageId, seat);
  }
}

=== FILE: layout.dfy ===
/**
 * Layout expansion: the nested zone → section → row → seat loops of the seat generators,
 * as a pure function from an event id and a configuration to the ordered seats written.
 */
module Layout {
  import opened Wrappers
  import opened Decimal
  import opened Schema

  /** The seat id `${eventId}-${zone}-${section}-${row}-${seat}`. */
  function SeatKey(eventId: nat, l: SeatLabel): string {
    NatToString(eventId) + "-" + l.zone + "-" + l.section + "-" + l.row + "-" + l.seat
  }

  /** Seat number `n` of a row, as the generator builds it. */
  function MakeSeat(eventId: nat, zone: string, section: string, row: string, n: nat): (s: Seat)
    ensures s.id == SeatKey(eventId, s.seatLabel)
    ensures s.seatLabel == SeatLabel(zone, section, row, NatToString(n))
    ensures s.eventId == eventId && s.status == Available && s.userId == None
  {
    var l := SeatLabel(zone, section, row, NatToString(n));
    Seat(SeatKey(eventId, l), eventId, Available, None, l)
  }

  /** Within one row a seat's id determines its number: the generator never writes two seats of a row under one id. */
  lemma {:induction false} MakeSeatIdDeterminesNumber(eventId: nat, zone: string, section: string, row: string, n: nat, m: nat)
    requires MakeSeat(eventId, zone, section, row, n).id == MakeSeat(eventId, zone, section, row, m).id
    ensures n == m
  {
    var p := NatToString(eventId) + "-" + zone + "-" + section + "-" + row + "-";
    var a, b := NatToString(n), NatToString(m);
    assert MakeSeat(eventId, zone, section, row, n).id == p + a;
    assert MakeSeat(eventId, zone, section, row, m).id == p + b;
    assert a == (p + a)[|p|..];
    assert b == (p + b)[|p|..];
    NatToStringInjective(n, m);
  }

  /** Seats `1..n` of one row, in order. */
  function RowSeats(eventId: nat, zone: string, section: string, row: string, n: nat): seq<Seat>
    decreases n
  {
    if n == 0 then [] else RowSeats(eventId, zone, section, row, n - 1) + [MakeSeat(eventId, zone, section, row, n)]
  }

  function ExpandRows(eventId: nat, zone: string, section: string, rows: seq<RowConfig>): seq<Seat>
    decreases |rows|
  {
    if rows == [] then []
    else
      var r := rows[|rows| - 1];
      ExpandRows(eventId, zone, section, rows[..|rows| - 1]) + RowSeats(eventId, zone, section, r.rowLabel, r.seatCount)
  }

  function ExpandSections(eventId: nat, zone: string, sections: seq<SectionConfig>): seq<Seat>
    decreases |sections|
  {
    if sections == [] then []
    else
      var s := sections[|sections| - 1];
      ExpandSections(eventId, zone, sections[..|sections| - 1]) + ExpandRows(eventId, zone, s.name, s.rows)
  }

  function ExpandZones(eventId: nat, zones: seq<ZoneConfig>): seq<Seat>
    decreases |zones|
  {
    if zones == [] then []
    else
      var z := zones[|zones| - 1];
      ExpandZones(eventId, zones[..|zones| - 1]) + ExpandSections(eventId, z.name, z.sections)
  }

  /** Every seat the configuration describes, zone by zone, section by section, row by row, seat 1 first. */
  function Expand(eventId: nat, c: EventConfiguration): seq<Seat> {
    ExpandZones(eventId, c.zones)
  }

  function RowsTotal(rows: seq<RowConfig>): nat
    decreases |rows|
  {
    if rows == [] then 0 else RowsTotal(rows[..|rows| - 1]) + rows[|rows| - 1].seatCount
  }

  function SectionsTotal(sections: seq<SectionConfig>): nat
    decreases |sections|
  {
    if sections == [] then 0 else SectionsTotal(sections[..|sections| - 1]) + RowsTotal(sections[|sections| - 1].rows)
  }

  function ZonesTotal(zones: seq<ZoneConfig>): nat
    decreases |zones|
  {
    if zones == [] then 0 else ZonesTotal(zones[..|zones| - 1]) + SectionsTotal(zones[|zones| - 1].sections)
  }

  /** The sum of `seatCount` over every row of the configuration. */
  function TotalSeats(c: EventConfiguration): nat {
    ZonesTotal(c.zones)
  }

  /** The ids of a sequence of seats, in order. */
  function IdsOf(ss: seq<Seat>): (ids: seq<string>)
    ensures |ids| == |ss|
    ensures forall i :: 0 <= i < |ss| ==> ids[i] == ss[i].id
    decreases |ss|
  {
    if ss == [] then [] else IdsOf(ss[..|ss| - 1]) + [ss[|ss| - 1].id]
  }

  /** The set of ids the configuration generates for an event. */
  ghost function LayoutIds(eventId: nat, c: EventConfiguration): set<string> {
    set k | k in IdsOf(Expand(eventId, c))
  }

  /** What the generator writes for every seat: an available seat with no user, keyed by its label. */
  ghost predicate Generated(eventId: nat, s: Seat) {
    s.eventId == eventId && s.status == Available && s.userId == None && s.id == SeatKey(eventId, s.seatLabel)
  }

  lemma {:induction false} RowSeatsCount(eventId: nat, zone: string, section: string, row: string, n: nat)
    ensures |RowSeats(eventId, zone, section, row, n)| == n
    ensures forall s :: s in RowSeats(eventId, zone, section, row, n) ==> Generated(eventId, s)
    decreases n
  {
    if n > 0 {
      RowSeatsCount(eventId, zone, section, row, n - 1);
    }
  }

  lemma {:induction false} ExpandRowsCount(eventId: nat, zone: string, section: string, rows: seq<RowConfig>)
    ensures |ExpandRows(eventId, zone, section, rows)| == RowsTotal(rows)
    ensures forall s :: s in ExpandRows(eventId, zone, section, rows) ==> Generated(eventId, s)
    decreases |rows|
  {
    if rows != [] {
      var r := rows[|rows| - 1];
      ExpandRowsCount(eventId, zone, section, rows[..|rows| - 1]);
      RowSeatsCount(eventId, zone, section, r.rowLabel, r.seatCount);
    }
  }

  lemma {:induction false} ExpandSectionsCount(eventId: nat, zone: string, sections: seq<SectionConfig>)
    ensures |ExpandSections(eventId, zone, sections)| == SectionsTotal(sections)
    ensures forall s :: s in ExpandSections(eventId, zone, sections) ==> Generated(eventId, s)
    decreases |sections|
  {
    if sections != [] {
      var s := sections[|sections| - 1];
      ExpandSectionsCount(eventId, zone, sections[..|sections| - 1]);
      ExpandRowsCount(eventId, zone, s.name, s.rows);
    }
  }

  lemma {:induction false} ExpandZonesCount(eventId: nat, zones: seq<ZoneConfig>)
    ensures |ExpandZones(eventId, zones)| == ZonesTotal(zones)
    ensures forall s :: s in ExpandZones(eventId, zones) ==> Generated(eventId, s)
    decreases |zones|
  {
    if zones != [] {
      var z := zones[|zones| - 1];
      ExpandZonesCount(eventId, zones[..|zones| - 1]);
      ExpandSectionsCount(eventId, z.name, z.sections);
    }
  }

  /**
   * The expansion holds exactly as many seats as the rows' seat counts add up to, and every
   * one of them is an available seat with no user whose id is built from its own label.
   */
  lemma ExpandShape(eventId: nat, c: EventConfiguration)
    ensures |Expand(eventId, c)| == TotalSeats(c)
    ensures forall s :: s in Expand(eventId, c) ==> Generated(eventId, s)
  {
    ExpandZonesCount(eventId, c.zones);
  }

  /** A row of `n` seats holds exactly seats `1..n` of that row. */
  lemma {:induction false} RowSeatsMembers(eventId: nat, zone: string, section: string, row: string, n: nat, s: Seat)
    ensures s in RowSeats(eventId, zone, section, row, n)
        <==> exists i :: 1 <= i <= n && s == MakeSeat(eventId, zone, section, row, i)
    decreases n
  {
    if n > 0 {
      var p := RowSeats(eventId, zone, section, row, n - 1);
      RowSeatsMembers(eventId, zone, section, row, n - 1, s);
      assert RowSeats(eventId, zone, section, row, n) == p + [MakeSeat(eventId, zone, section, row, n)];
      if s == MakeSeat(eventId, zone, section, row, n) {
        assert 1 <= n <= n;
      } else if exists i :: 1 <= i <= n && s == MakeSeat(eventId, zone, section, row, i) {
        var i :| 1 <= i <= n && s == MakeSeat(eventId, zone, section, row, i);
        assert 1 <= i <= n - 1;
      }
    }
  }

  /** `s` is seat `i`, `1 <= i <= seatCount`, of row `r` of section `section` of zone `zone`. */
  ghost predicate InRow(eventId: nat, zone: string, section: string, r: RowConfig, s: Seat) {
    exists i :: 1 <= i <= r.seatCount && s == MakeSeat(eventId, zone, section, r.rowLabel, i)
  }

  /** `s` is a seat of some row of section `sc` of zone `zone`. */
  ghost predicate InSection(eventId: nat, zone: string, sc: SectionConfig, s: Seat) {
    exists j :: 0 <= j < |sc.rows| && InRow(eventId, zone, sc.name, sc.rows[j], s)
  }

  /** `s` is a seat of some section of zone `zc`. */
  ghost predicate InZone(eventId: nat, zc: ZoneConfig, s: Seat) {
    exists k :: 0 <= k < |zc.sections| && InSection(eventId, zc.name, zc.sections[k], s)
  }

  /** `s` is a seat of some zone of the configuration. */
  ghost predicate Describes(eventId: nat, c: EventConfiguration, s: Seat) {
    exists q :: 0 <= q < |c.zones| && InZone(eventId, c.zones[q], s)
  }

  /** The rows of a section hold exactly the seats of each of its rows. */
  lemma {:induction false} ExpandRowsMembers(eventId: nat, zone: string, section: string, rows: seq<RowConfig>, s: Seat)
    ensures s in ExpandRows(eventId, zone, section, rows)
        <==> exists j :: 0 <= j < |rows| && InRow(eventId, zone, section, rows[j], s)
    decreases |rows|
  {
    if rows != [] {
      var p, r := rows[..|rows| - 1], rows[|rows| - 1];
      var front, back := ExpandRows(eventId, zone, section, p), RowSeats(eventId, zone, section, r.rowLabel, r.seatCount);
      assert ExpandRows(eventId, zone, section, rows) == front + back;
      ExpandRowsMembers(eventId, zone, section, p, s);
      RowSeatsMembers(eventId, zone, section, r.rowLabel, r.seatCount, s);
      if s in front {
        var j :| 0 <= j < |p| && InRow(eventId, zone, section, p[j], s);
        assert rows[j] == p[j];
      } else if s in back {
        assert InRow(eventId, zone, section, rows[|rows| - 1], s);
      } else {
        forall j | 0 <= j < |rows| ensures !InRow(eventId, zone, section, rows[j], s) {
          if j < |p| {
            assert rows[j] == p[j];
          }
        }
      }
    }
  }

  /** The sections of a zone hold exactly the seats of each of its sections. */
  lemma {:induction false} ExpandSectionsMembers(eventId: nat, zone: string, sections: seq<SectionConfig>, s: Seat)
    ensures s in ExpandSections(eventId, zone, sections)
        <==> exists k :: 0 <= k < |sections| && InSection(eventId, zone, sections[k], s)
    decreases |sections|
  {
    if sections != [] {
      var p, sc := sections[..|sections| - 1], sections[|sections| - 1];
      var front, back := ExpandSections(eventId, zone, p), ExpandRows(eventId, zone, sc.name, sc.rows);
      assert ExpandSections(eventId, zone, sections) == front + back;
      ExpandSectionsMembers(eventId, zone, p, s);
      ExpandRowsMembers(eventId, zone, sc.name, sc.rows, s);
      if s in front {
        var k :| 0 <= k < |p| && InSection(eventId, zone, p[k], s);
        assert sections[k] == p[k];
      } else if s in back {
        assert InSection(eventId, zone, sections[|sections| - 1], s);
      } else {
        forall k | 0 <= k < |sections| ensures !InSection(eventId, zone, sections[k], s) {
          if k < |p| {
            assert sections[k] == p[k];
          }
        }
      }
    }
  }

  /** The zones hold exactly the seats of each of the zones. */
  lemma {:induction false} ExpandZonesMembers(eventId: nat, zones: seq<ZoneConfig>, s: Seat)
    ensures s in ExpandZones(eventId, zones) <==> exists q :: 0 <= q < |zones| && InZone(eventId, zones[q], s)
    decreases |zones|
  {
    if zones != [] {
      var p, z := zones[..|zones| - 1], zones[|zones| - 1];
      var front, back := ExpandZones(eventId, p), ExpandSections(eventId, z.name, z.sections);
      assert ExpandZones(eventId, zones) == front + back;
      ExpandZonesMembers(eventId, p, s);
      ExpandSectionsMembers(eventId, z.name, z.sections, s);
      if s in front {
        var q :| 0 <= q < |p| && InZone(eventId, p[q], s);
        assert zones[q] == p[q];
      } else if s in back {
        assert InZone(eventId, zones[|zones| - 1], s);
      } else {
        forall q | 0 <= q < |zones| ensures !InZone(eventId, zones[q], s) {
          if q < |p| {
            assert zones[q] == p[q];
          }
        }
      }
    }
  }

  /**
   * The generator writes exactly the seats the configuration describes: seat `i`,
   * `1 <= i <= seatCount`, of every row of every section of every zone, labelled with their
   * names, and nothing else.
   */
  lemma ExpandMembers(eventId: nat, c: EventConfiguration, s: Seat)
    ensures s in Expand(eventId, c) <==> Describes(eventId, c, s)
  {
    ExpandZonesMembers(eventId, c.zones, s);
  }

  /** Seat `i` of row `j` of section `k` of zone `q` is among the generated seats. */
  lemma ExpandHasPosition(eventId: nat, c: EventConfiguration, q: nat, k: nat, j: nat, i: nat)
    requires q < |c.zones| && k < |c.zones[q].sections| && j < |c.zones[q].sections[k].rows|
    requires 1 <= i <= c.zones[q].sections[k].rows[j].seatCount
    ensures MakeSeat(eventId, c.zones[q].name, c.zones[q].sections[k].name, c.zones[q].sections[k].rows[j].rowLabel, i)
              in Expand(eventId, c)
  {
    var z := c.zones[q];
    var sc := z.sections[k];
    var s := MakeSeat(eventId, z.name, sc.name, sc.rows[j].rowLabel, i);
    assert InRow(eventId, z.name, sc.name, sc.rows[j], s);
    assert InSection(eventId, z.name, sc, s);
    assert InZone(eventId, z, s);
    ExpandMembers(eventId, c, s);
  }

  /** Every generated seat is seat `i` of row `j` of section `k` of zone `q` for some valid position. */
  lemma ExpandPositionOf(eventId: nat, c: EventConfiguration, s: Seat)
    requires s in Expand(eventId, c)
    ensures exists q, k, j, i ::
              && 0 <= q < |c.zones| && 0 <= k < |c.zones[q].sections| && 0 <= j < |c.zones[q].sections[k].rows|
              && 1 <= i <= c.zones[q].sections[k].rows[j].seatCount
              && s == MakeSeat(eventId, c.zones[q].name, c.zones[q].sections[k].name, c.zones[q].sections[k].rows[j].rowLabel, i)
  {
    ExpandMembers(eventId, c, s);
    var q :| 0 <= q < |c.zones| && InZone(eventId, c.zones[q], s);
    var z := c.zones[q];
    var k :| 0 <= k < |z.sections| && InSection(eventId, z.name, z.sections[k], s);
    var sc := z.sections[k];
    var j :| 0 <= j < |sc.rows| && InRow(eventId, z.name, sc.name, sc.rows[j], s);
    var i :| 1 <= i <= sc.rows[j].seatCount && s == MakeSeat(eventId, z.name, sc.name, sc.rows[j].rowLabel, i);
  }

  /** The characters of `s` before its first `-` (all of `s` when it has none). */
  function BeforeFirstDash(s: string): (p: string)
    ensures '-' !in p
    ensures p <= s
    decreases |s|
  {
    if s == [] || s[0] == '-' then [] else [s[0]] + BeforeFirstDash(s[1..])
  }

  lemma {:induction false} BeforeFirstDashOf(a: string, rest: string)
    requires '-' !in a
    ensures BeforeFirstDash(a + "-" + rest) == a
    decreases |a|
  {
    if a != [] {
      assert (a + "-" + rest)[1..] == a[1..] + "-" + rest;
      BeforeFirstDashOf(a[1..], rest);
    }
  }

  /** The decimal event id is what precedes the first `-` of every seat id. */
  lemma EventIdBeforeFirstDash(eventId: nat, l: SeatLabel)
    ensures BeforeFirstDash(SeatKey(eventId, l)) == NatToString(eventId)
  {
    var rest := l.zone + "-" + l.section + "-" + l.row + "-" + l.seat;
    assert SeatKey(eventId, l) == NatToString(eventId) + "-" + rest;
    BeforeFirstDashOf(NatToString(eventId), rest);
  }

  /** Seat ids of different events never collide, whatever the names contain. */
  lemma SeatKeyDeterminesEvent(e1: nat, l1: SeatLabel, e2: nat, l2: SeatLabel)
    requires SeatKey(e1, l1) == SeatKey(e2, l2)
    ensures e1 == e2
  {
    EventIdBeforeFirstDash(e1, l1);
    EventIdBeforeFirstDash(e2, l2);
    NatToStringInjective(e1, e2);
  }

  /** No component of the label contains the separator. */
  predicate DashFree(l: SeatLabel) {
    '-' !in l.zone && '-' !in l.section && '-' !in l.row && '-' !in l.seat
  }

  lemma SplitAtDash(a: string, b: string, c: string, d: string)
    requires '-' !in a && '-' !in c
    requires a + "-" + b == c + "-" + d
    ensures a == c && b == d
  {
    BeforeFirstDashOf(a, b);
    BeforeFirstDashOf(c, d);
    assert (a + "-" + b)[|a| + 1..] == b;
    assert (c + "-" + d)[|c| + 1..] == d;
  }

  /** Within one event, ids are unambiguous when no name contains `-`. */
  lemma SeatKeyInjective(eventId: nat, l1: SeatLabel, l2: SeatLabel)
    requires DashFree(l1) && DashFree(l2)
    requires SeatKey(eventId, l1) == SeatKey(eventId, l2)
    ensures l1 == l2
  {
    var e := NatToString(eventId);
    NoDashInNatToString(eventId);
    var r1 := l1.zone + "-" + (l1.section + "-" + (l1.row + "-" + l1.seat));
    var r2 := l2.zone + "-" + (l2.section + "-" + (l2.row + "-" + l2.seat));
    assert SeatKey(eventId, l1) == e + "-" + r1;
    assert SeatKey(eventId, l2) == e + "-" + r2;
    SplitAtDash(e, r1, e, r2);
    SplitAtDash(l1.zone, l1.section + "-" + (l1.row + "-" + l1.seat), l2.zone, l2.section + "-" + (l2.row + "-" + l2.seat));
    SplitAtDash(l1.section, l1.row + "-" + l1.seat, l2.section, l2.row + "-" + l2.seat);
    SplitAtDash(l1.row, l1.seat, l2.row, l2.seat);
  }

  /** Names containing `-` can collide: zone "A-B"/section "C" and zone "A"/section "B-C". */
  lemma DashedNamesCollide()
    ensures SeatKey(1, SeatLabel("A-B", "C", "R", "1")) == SeatKey(1, SeatLabel("A", "B-C", "R", "1"))
  {
  }
}

=== FILE: layout_examples.dfy ===
/**
 * Worked layouts: a one-row configuration, the seed event the server creates at start-up, a
 * configuration whose repeated row label makes two generated seats share an id, and what the
 * configuration schemas accept.
 */
module LayoutExamples {
  import opened Wrappers
  import opened Decimal
  import opened Schema
  import opened Layout
  import opened OrderedMaps
  import opened SeatTables

  /** The decimal spellings the examples use. */
  lemma Digits()
    ensures NatToString(7) == "7" && NatToString(1) == "1" && NatToString(2) == "2" && NatToString(3) == "3"
  {
  }

  /** The first seat of event 7's front row is `7-Front-A-1-1`. */
  lemma FirstSeatId()
    ensures MakeSeat(7, "Front", "A", "1", 1).id == "7-Front-A-1-1"
  {
    Digits();
  }

  /** One zone, one section, one row of three seats. */
  function FrontRow(): EventConfiguration {
    EventConfiguration([ZoneConfig("Front", [SectionConfig("A", [RowConfig("1", 3, None)])])])
  }

  /** That layout generates seats 1, 2 and 3 of the row, in this order. */
  lemma FrontRowSeats()
    ensures Expand(7, FrontRow()) == [MakeSeat(7, "Front", "A", "1", 1), MakeSeat(7, "Front", "A", "1", 2), MakeSeat(7, "Front", "A", "1", 3)]
  {
    var c := FrontRow();
    var s1, s2, s3 := MakeSeat(7, "Front", "A", "1", 1), MakeSeat(7, "Front", "A", "1", 2), MakeSeat(7, "Front", "A", "1", 3);
    assert RowSeats(7, "Front", "A", "1", 3) == [s1, s2, s3] by {
      assert RowSeats(7, "Front", "A", "1", 1) == [s1];
      assert RowSeats(7, "Front", "A", "1", 2) == [s1, s2];
    }
    var z := c.zones[0];
    var sec := z.sections[0];
    assert sec.rows[..0] == [] && z.sections[..0] == [] && c.zones[..0] == [];
  }

  /** The configuration of the event seeded into an empty store. */
  function Seed(): EventConfiguration {
    EventConfiguration([
      ZoneConfig("Front", [
        SectionConfig("Left", [RowConfig("A", 5, None), RowConfig("B", 6, None)]),
        SectionConfig("Center", [RowConfig("A", 10, None), RowConfig("B", 12, None)]),
        SectionConfig("Right", [RowConfig("A", 5, None), RowConfig("B", 6, None)])]),
      ZoneConfig("Back", [
        SectionConfig("General", [RowConfig("AA", 20, None), RowConfig("BB", 20, None)])])])
  }

  lemma TwoRows(a: RowConfig, b: RowConfig)
    ensures RowsTotal([a, b]) == a.seatCount + b.seatCount
  {
    assert [a, b][..1] == [a];
    assert [a][..0] == [];
    assert RowsTotal([a]) == a.seatCount;
  }

  /** The seed event has 84 seats. */
  lemma SeedTotal()
    ensures TotalSeats(Seed()) == 84
  {
    var c := Seed();
    var front, back := c.zones[0], c.zones[1];
    var l, m, r, g := front.sections[0], front.sections[1], front.sections[2], back.sections[0];
    TwoRows(l.rows[0], l.rows[1]);
    assert l.rows == [l.rows[0], l.rows[1]];
    TwoRows(m.rows[0], m.rows[1]);
    assert m.rows == [m.rows[0], m.rows[1]];
    TwoRows(r.rows[0], r.rows[1]);
    assert r.rows == [r.rows[0], r.rows[1]];
    TwoRows(g.rows[0], g.rows[1]);
    assert g.rows == [g.rows[0], g.rows[1]];
    assert front.sections[..2] == [l, m];
    assert [l, m][..1] == [l];
    assert [l][..0] == [];
    assert SectionsTotal([l]) == 11;
    assert SectionsTotal([l, m]) == 33;
    assert SectionsTotal(front.sections) == 44;
    assert back.sections[..0] == [];
    assert SectionsTotal(back.sections) == 40;
    assert c.zones[..1] == [front];
    assert [front][..0] == [];
    assert ZonesTotal([front]) == 44;
  }

  /** Two rows labelled "A" in the same section: two generated seats, one stored id. */
  function RepeatedRow(): EventConfiguration {
    EventConfiguration([ZoneConfig("Z", [SectionConfig("S", [RowConfig("A", 1, None), RowConfig("A", 1, None)])])])
  }

  /** A repeated row label generates both rows, but the second write replaces the first under the same id. */
  lemma RepeatedRowCollapses()
    ensures TotalSeats(RepeatedRow()) == 2
    ensures |Expand(1, RepeatedRow())| == 2
    ensures |PutAll(EmptyMap(), Expand(1, RepeatedRow())).keys| == 1
  {
    var c := RepeatedRow();
    var row := c.zones[0].sections[0].rows[0];
    TwoRows(row, row);
    assert c.zones[0].sections[0].rows == [row, row];
    assert c.zones[0].sections[..0] == [] && c.zones[..0] == [];
    var s := MakeSeat(1, "Z", "S", "A", 1);
    assert RowSeats(1, "Z", "S", "A", 1) == [s];
    assert [row, row][..1] == [row] && [row][..0] == [];
    assert ExpandRows(1, "Z", "S", [row]) == [s];
    assert ExpandRows(1, "Z", "S", [row, row]) == [s, s];
    assert ExpandSections(1, "Z", c.zones[0].sections) == [s, s];
    assert Expand(1, c) == [s, s];
    assert [s, s][..1] == [s] && [s][..0] == [];
    assert PutAll(EmptyMap(), [s]).keys == [s.id];
  }

  /**
   * The schemas accept empty lists and empty names: a configuration without zones, or with a
   * zone holding one section without rows, is valid and lays out no seat.
   */
  lemma EmptyConfigurationsValid(e: nat)
    ensures ValidConfiguration(EventConfiguration([])) && Expand(e, EventConfiguration([])) == []
    ensures var c := EventConfiguration([ZoneConfig("", [SectionConfig("", [])])]);
      ValidConfiguration(c) && Expand(e, c) == [] && TotalSeats(c) == 0
  {
    var c := EventConfiguration([ZoneConfig("", [SectionConfig("", [])])]);
    assert c.zones[..0] == [] && c.zones[0].sections[..0] == [];
    assert ExpandSections(e, "", c.zones[0].sections) == [];
    assert SectionsTotal(c.zones[0].sections) == 0;
  }

  /** A row needs a seat; its label may be empty and its aisle numbers anything. */
  lemma RowValidity()
    ensures !ValidRow(RowConfig("A", 0, None))
    ensures ValidRow(RowConfig("", 1, Some([-3, 0, 99])))
  {
  }

  /** The seed configuration passes the schemas. */
  lemma SeedValid()
    ensures ValidConfiguration(Seed())
  {
  }
}

=== FILE: ordered_map.dfy ===
/**
 * JavaScript's `Map`: a keyed table that also remembers the order in which keys were first
 * inserted. `set` on a present key replaces the value in place, `set` on a new key appends it,
 * `delete` removes it, and iteration (`keys()`, `values()`, `entries()`) follows insertion order.
 */
module OrderedMaps {
  import opened Wrappers

  /** No element occurs twice. */
  ghost predicate Distinct<T>(xs: seq<T>) {
    forall i, j :: 0 <= i < j < |xs| ==> xs[i] != xs[j]
  }

  lemma DistinctAppend<T>(xs: seq<T>, x: T)
    requires Distinct(xs) && x !in xs
    ensures Distinct(xs + [x])
  {
  }

  /** `ks` with every occurrence of `k` removed, the rest kept in order. */
  function Without<K(==, !new)>(ks: seq<K>, k: K): (r: seq<K>)
    ensures forall x :: x in r <==> x in ks && x != k
    ensures Distinct(ks) ==> Distinct(r)
    decreases |ks|
  {
    if ks == [] then []
    else
      var rest := Without(ks[..|ks| - 1], k);
      var last := ks[|ks| - 1];
      assert Distinct(ks) ==> last !in ks[..|ks| - 1];
      if last == k then rest else rest + [last]
  }

  lemma {:induction false} WithoutAbsent<K(!new)>(ks: seq<K>, k: K)
    requires k !in ks
    ensures Without(ks, k) == ks
    decreases |ks|
  {
    if ks != [] {
      WithoutAbsent(ks[..|ks| - 1], k);
      assert ks[..|ks| - 1] + [ks[|ks| - 1]] == ks;
    }
  }

  lemma {:induction false} WithoutConcat<K(!new)>(a: seq<K>, b: seq<K>, k: K)
    ensures Without(a + b, k) == Without(a, k) + Without(b, k)
    decreases |b|
  {
    if b == [] {
      assert a + b == a;
    } else {
      var b' := b[..|b| - 1];
      assert (a + b)[..|a + b| - 1] == a + b';
      WithoutConcat(a, b', k);
    }
  }

  /** In a repetition-free sequence the element at `i` occurs neither before nor after `i`. */
  lemma {:induction false} DistinctAt<T>(ks: seq<T>, i: nat)
    requires Distinct(ks) && i < |ks|
    ensures ks[i] !in ks[..i] && ks[i] !in ks[i + 1..]
  {
    var before, rest := ks[..i], ks[i + 1..];
    forall x | x in before ensures x != ks[i] {
      var j :| 0 <= j < |before| && before[j] == x;
    }
    forall x | x in rest ensures x != ks[i] {
      var j :| 0 <= j < |rest| && rest[j] == x;
      assert ks[i + 1 + j] == x;
    }
  }

  /** Removing a key that occurs once, between two runs that lack it, joins the runs. */
  lemma {:induction false} WithoutSplice<K(!new)>(kept: seq<K>, k: K, rest: seq<K>)
    requires k !in kept && k !in rest
    ensures Without(kept + ([k] + rest), k) == kept + rest
  {
    assert [k][..0] == [];
    assert Without([k], k) == [];
    WithoutConcat([k], rest, k);
    WithoutAbsent(rest, k);
    WithoutConcat(kept, [k] + rest, k);
    WithoutAbsent(kept, k);
  }

  /** Removing the key at position `i` of a repetition-free sequence, with some earlier keys already dropped. */
  lemma {:induction false} WithoutNext<K(!new)>(kept: seq<K>, ks: seq<K>, i: nat)
    requires Distinct(ks) && i < |ks|
    requires forall x :: x in kept ==> x in ks[..i]
    ensures Without(kept + ks[i..], ks[i]) == kept + ks[i + 1..]
  {
    DistinctAt(ks, i);
    assert ks[i..] == [ks[i]] + ks[i + 1..];
    WithoutSplice(kept, ks[i], ks[i + 1..]);
  }

  datatype OrderedMap<K(==, !new), V> = OrderedMap(keys: seq<K>, entries: map<K, V>)
  {
    /** The insertion order lists every key exactly once. */
    ghost predicate Valid() {
      && Distinct(keys)
      && forall k :: k in entries <==> k in keys
    }

    /** `map.get(k)`: the value stored under `k`, if any. */
    function Get(k: K): Option<V> {
      if k in entries then Some(entries[k]) else None
    }

    /** `map.set(k, v)`: a present key keeps its position, a new key goes last. */
    function Set(k: K, v: V): (r: OrderedMap<K, V>)
      ensures Valid() ==> r.Valid()
      ensures r.Get(k) == Some(v)
      ensures forall j :: j != k ==> r.Get(j) == Get(j)
      ensures k in entries ==> r.keys == keys
      ensures k !in entries ==> r.keys == keys + [k]
    {
      if k in entries then OrderedMap(keys, entries[k := v])
      else OrderedMap(keys + [k], entries[k := v])
    }

    /** `map.delete(k)`: removes `k` and its value; the other keys keep their order. */
    function Delete(k: K): (r: OrderedMap<K, V>)
      ensures Valid() ==> r.Valid()
      ensures r.Get(k) == None
      ensures forall j :: j != k ==> r.Get(j) == Get(j)
      ensures r.keys == Without(keys, k)
    {
      OrderedMap(Without(keys, k), entries - {k})
    }

    /** `Array.from(map.values())`: the values in insertion order. */
    function Values(): (vs: seq<V>)
      requires Valid()
      ensures |vs| == |keys|
      ensures forall i :: 0 <= i < |keys| ==> vs[i] == entries[keys[i]]
    {
      seq(|keys|, i requires 0 <= i < |keys| => entries[keys[i]])
    }
  }

  /** `new Map()`. */
  function EmptyMap<K(==, !new), V>(): (m: OrderedMap<K, V>)
    ensures m.Valid() && m.keys == [] && m.entries == map[]
  {
    OrderedMap([], map[])
  }

  /**
   * `set` as `values()` sees it: the value of a new key comes last, and the value of a present key
   * is replaced where it stands.
   */
  lemma {:induction false} SetValues<K(!new), V>(m: OrderedMap<K, V>, k: K, v: V)
    requires m.Valid()
    ensures k !in m.entries ==> m.Set(k, v).Values() == m.Values() + [v]
    ensures k in m.entries ==> |m.Set(k, v).Values()| == |m.Values()|
    ensures k in m.entries ==>
      forall i :: 0 <= i < |m.keys| ==> m.Set(k, v).Values()[i] == if m.keys[i] == k then v else m.Values()[i]
  {
    var r := m.Set(k, v);
    assert r.Valid();
    if k !in m.entries {
      assert r.keys == m.keys + [k];
      forall i | 0 <= i < |m.keys| ensures r.Values()[i] == m.Values()[i] {
        assert m.keys[i] != k;
      }
    }
  }

  /** `delete` of the key at position `i` cuts that position out of the key order. */
  lemma {:induction false} DeleteKeys<K(!new), V>(m: OrderedMap<K, V>, i: nat)
    requires m.Valid() && i < |m.keys|
    ensures m.Delete(m.keys[i]).keys == m.keys[..i] + m.keys[i + 1..]
  {
    var k := m.keys[i];
    DistinctAt(m.keys, i);
    assert m.keys == m.keys[..i] + ([k] + m.keys[i + 1..]);
    WithoutSplice(m.keys[..i], k, m.keys[i + 1..]);
  }

  /** `delete` as `values()` sees it: the deleted key's value drops out and the others keep their order. */
  lemma {:induction false} DeleteValues<K(!new), V>(m: OrderedMap<K, V>, i: nat)
    requires m.Valid() && i < |m.keys|
    ensures m.Delete(m.keys[i]).Values() == m.Values()[..i] + m.Values()[i + 1..]
  {
    var k := m.keys[i];
    var r := m.Delete(k);
    DeleteKeys(m, i);
    var vs := m.Values();
    var want := vs[..i] + vs[i + 1..];
    var got := r.Values();
    assert |got| == |want|;
    forall j | 0 <= j < |want| ensures got[j] == want[j] {
      var j' := if j < i then j else j + 1;
      assert r.keys[j] == m.keys[j'] && want[j] == vs[j'];
      assert m.keys[j'] != k;
      assert r.Get(m.keys[j']) == m.Get(m.keys[j']);
    }
  }
}

=== FILE: routes.dfy ===
/**
 * The API's path templates and `buildUrl`, which fills `:name` placeholders of a path with the
 * values of a parameter object, one parameter after another, replacing the first occurrence of
 * each placeholder only.
 */
module Routes {
  import opened Wrappers
  import opened Decimal

  // ---------------------------------------------------------------------------------------
  // Path templates

  /** `/api/events`: listing and creating events. */
  const EventsPath: string := "/api/events"
  /** `/api/events/:id`: reading, updating and deleting one event. */
  const EventPath: string := EventsPath + "/" + Placeholder("id")
  /** `/api/events/:id/seats`: an event's seats. */
  const SeatsPath: string := EventPath + "/seats"
  /** `/api/events/:id/seats/update`: a status write. */
  const SeatsUpdatePath: string := SeatsPath + "/update"
  /** `/api/events/:id/seats/reset`: a reset. */
  const SeatsResetPath: string := SeatsPath + "/reset"

  /** A parameter value: `buildUrl` accepts strings and numbers and renders them with `String`. */
  datatype ParamValue = Text(text: string) | Number(n: int)

  function ValueText(v: ParamValue): string {
    match v
    case Text(s) => s
    case Number(n) => IntToString(n)
  }

  /** The placeholder a parameter named `key` fills. */
  function Placeholder(key: string): (p: string)
    ensures |p| == |key| + 1 && p[0] == ':'
  {
    ":" + key
  }

  // ---------------------------------------------------------------------------------------
  // Searching and replacing within a string

  /** `pat` occurs in `s` starting at position `i`. */
  predicate OccursAt(s: string, pat: string, i: nat) {
    i + |pat| <= |s| && s[i..i + |pat|] == pat
  }

  /** The first position at or after `from` where `pat` occurs (`indexOf`), if any. */
  function IndexFrom(s: string, pat: string, from: nat): (r: Option<nat>)
    requires from <= |s|
    ensures r.Some? ==> from <= r.value && OccursAt(s, pat, r.value)
    ensures r.Some? ==> forall j :: from <= j < r.value ==> !OccursAt(s, pat, j)
    ensures r.None? ==> forall j :: from <= j <= |s| ==> !OccursAt(s, pat, j)
    decreases |s| - from
  {
    if OccursAt(s, pat, from) then Some(from)
    else if from == |s| then None
    else IndexFrom(s, pat, from + 1)
  }

  function IndexOf(s: string, pat: string): Option<nat> {
    IndexFrom(s, pat, 0)
  }

  /** `s.includes(pat)`. */
  predicate Includes(s: string, pat: string) {
    IndexOf(s, pat).Some?
  }

  /** `s.replace(pat, rep)` with a string pattern: only the first occurrence is replaced. */
  function ReplaceFirst(s: string, pat: string, rep: string): string {
    match IndexOf(s, pat)
    case None => s
    case Some(i) => s[..i] + rep + s[i + |pat|..]
  }

  /**
   * Replacing splices `rep` in at the first occurrence of `pat` and keeps the text on both sides:
   * the text before has no occurrence, the text after is kept even if it holds more occurrences.
   * Without an occurrence nothing changes.
   */
  lemma {:induction false} ReplaceFirstSplices(s: string, pat: string, rep: string)
    ensures !Includes(s, pat) ==> ReplaceFirst(s, pat, rep) == s
    ensures Includes(s, pat) ==>
      exists i :: 0 <= i && i + |pat| <= |s|
        && (forall j :: 0 <= j < i ==> !OccursAt(s, pat, j))
        && s[i..i + |pat|] == pat
        && ReplaceFirst(s, pat, rep) == s[..i] + rep + s[i + |pat|..]
    ensures Includes(s, pat) ==> |ReplaceFirst(s, pat, rep)| == |s| - |pat| + |rep|
  {
    if Includes(s, pat) {
      var i := IndexOf(s, pat).value;
      assert OccursAt(s, pat, i);
      assert s[i..i + |pat|] == pat;
      assert ReplaceFirst(s, pat, rep) == s[..i] + rep + s[i + |pat|..];
    }
  }

  /** A placeholder never occurs in a string without a colon. */
  lemma {:induction false} NoColonNoPlaceholder(s: string, key: string)
    requires ':' !in s
    ensures !Includes(s, Placeholder(key))
  {
    var p := Placeholder(key);
    forall i | 0 <= i <= |s| ensures !OccursAt(s, p, i) {
      if i + |p| <= |s| {
        assert s[i..i + |p|][0] == s[i] != ':';
      }
    }
  }

  // ---------------------------------------------------------------------------------------
  // Filling a template

  /** One parameter applied to the url built so far. */
  function Fill(url: string, key: string, v: ParamValue): string {
    var p := Placeholder(key);
    if Includes(url, p) then ReplaceFirst(url, p, ValueText(v)) else url
  }

  /** The parameters applied in the order `Object.entries` lists them, each to the previous result. */
  function Substituted(path: string, params: seq<(string, ParamValue)>): string
    decreases |params|
  {
    if params == [] then path
    else
      var last := params[|params| - 1];
      Fill(Substituted(path, params[..|params| - 1]), last.0, last.1)
  }

  /**
   * `buildUrl(path, params)`: without a parameter object the path comes back as it is; otherwise
   * each entry in turn replaces the first occurrence of its placeholder, when there is one.
   */
  method BuildUrl(path: string, params: Option<seq<(string, ParamValue)>>) returns (url: string)
    ensures params.None? ==> url == path
    ensures params.Some? ==> url == Substituted(path, params.value)
  {
    url := path;
    if params.Some? {
      var entries := params.value;
      for i := 0 to |entries|
        invariant url == Substituted(path, entries[..i])
      {
        var (key, value) := entries[i];
        assert entries[..i + 1][..i] == entries[..i];
        if Includes(url, Placeholder(key)) {
          url := ReplaceFirst(url, Placeholder(key), ValueText(value));
        }
      }
      assert entries[..|entries|] == entries;
    }
  }

  // ---------------------------------------------------------------------------------------
  // Properties of filling

  /** Filling with a single parameter is one `Fill`. */
  lemma {:induction false} SubstitutedOne(path: string, key: string, v: ParamValue)
    ensures Substituted(path, [(key, v)]) == Fill(path, key, v)
  {
    assert [(key, v)][..0] == [];
  }

  /** Parameters are applied in order: filling with `a + b` fills with `a`, then with `b`. */
  lemma {:induction false} SubstitutedConcat(path: string, a: seq<(string, ParamValue)>, b: seq<(string, ParamValue)>)
    ensures Substituted(path, a + b) == Substituted(Substituted(path, a), b)
    decreases |b|
  {
    if b == [] {
      assert a + b == a;
    } else {
      var b', last := b[..|b| - 1], b[|b| - 1];
      var ab := a + b;
      SubstitutedConcat(path, a, b');
      assert ab[..|ab| - 1] == a + b' && ab[|ab| - 1] == last;
      var mid := Substituted(path, a + b');
      assert Substituted(path, ab) == Fill(mid, last.0, last.1);
      assert Substituted(Substituted(path, a), b) == Fill(mid, last.0, last.1);
    }
  }

  /** A parameter whose placeholder is absent leaves the url as it is. */
  lemma {:induction false} AbsentKeyUnchanged(path: string, params: seq<(string, ParamValue)>, key: string, v: ParamValue)
    requires !Includes(Substituted(path, params), Placeholder(key))
    ensures Substituted(path, params + [(key, v)]) == Substituted(path, params)
  {
    assert (params + [(key, v)])[..|params|] == params;
  }

  /** A path without placeholders comes back unchanged whatever the parameters. */
  lemma {:induction false} NoPlaceholdersUnchanged(path: string, params: seq<(string, ParamValue)>)
    requires ':' !in path
    ensures Substituted(path, params) == path
    decreases |params|
  {
    if params != [] {
      var last := params[|params| - 1];
      NoPlaceholdersUnchanged(path, params[..|params| - 1]);
      NoColonNoPlaceholder(path, last.0);
    }
  }

  /** A placeholder whose name has no colon does not start inside the text before its first copy. */
  lemma {:induction false} NoEarlierPlaceholder(before: string, key: string, after: string, j: nat)
    requires ':' !in key && !Includes(before, Placeholder(key)) && j < |before|
    ensures !OccursAt(before + Placeholder(key) + after, Placeholder(key), j)
  {
    var p := Placeholder(key);
    var s := before + p + after;
    if j + |p| <= |before| {
      assert s[j..j + |p|] == before[j..j + |p|];
      assert !OccursAt(before, p, j);
    } else if j + |p| <= |s| {
      var d := |before| - j;
      assert s[j..j + |p|][d] == s[|before|] == ':';
      assert p[d] == key[d - 1] != ':';
    }
  }

  /**
   * Filling one parameter whose name has no colon replaces its first placeholder and leaves later
   * ones in place.
   */
  lemma {:induction false} FillFirstOnly(before: string, key: string, after: string, v: ParamValue)
    requires ':' !in key && !Includes(before, Placeholder(key))
    ensures Fill(before + Placeholder(key) + after, key, v) == before + ValueText(v) + after
  {
    var p := Placeholder(key);
    var s := before + p + after;
    var i := |before|;
    assert s[i..i + |p|] == p;
    assert OccursAt(s, p, i);
    forall j | 0 <= j < i ensures !OccursAt(s, p, j) {
      NoEarlierPlaceholder(before, key, after, j);
    }
    assert IndexOf(s, p) == Some(i);
    assert s[..i] == before;
    assert s[i + |p|..] == after;
  }

  // ---------------------------------------------------------------------------------------
  // Examples

  /** The seats route of event 7 is `/api/events/7/seats`. */
  lemma SeatsOfSeven()
    ensures Substituted(SeatsPath, [("id", Number(7))]) == EventsPath + "/7/seats"
  {
    var before, after := EventsPath + "/", "/seats";
    NoColonNoPlaceholder(before, "id");
    FillFirstOnly(before, "id", after, Number(7));
    assert ValueText(Number(7)) == "7";
    assert SeatsPath == before + Placeholder("id") + after;
    SubstitutedOne(SeatsPath, "id", Number(7));
  }

  /** A placeholder also matches the start of a longer name: `:id` is found inside `:idx`. */
  lemma PlaceholderPrefixMatches()
    ensures Substituted("/items/" + Placeholder("idx"), [("id", Number(7))]) == "/items/7x"
  {
    var before, after := "/items/", "x";
    assert Placeholder("idx") == Placeholder("id") + after;
    assert before + Placeholder("idx") == before + Placeholder("id") + after;
    NoColonNoPlaceholder(before, "id");
    FillFirstOnly(before, "id", after, Number(7));
    SubstitutedOne(before + Placeholder("idx"), "id", Number(7));
    assert ValueText(Number(7)) == "7";
  }

  /** A repeated placeholder is filled once; the second occurrence stays. */
  lemma RepeatedPlaceholderOnce()
    ensures Substituted("/" + Placeholder("id") + "/" + Placeholder("id"), [("id", Text("a"))])
         == "/a/" + Placeholder("id")
  {
    var before, after := "/", "/" + Placeholder("id");
    assert "/" + Placeholder("id") + "/" + Placeholder("id") == before + Placeholder("id") + after;
    NoColonNoPlaceholder(before, "id");
    FillFirstOnly(before, "id", after, Text("a"));
    SubstitutedOne(before + Placeholder("id") + after, "id", Text("a"));
  }
}

=== FILE: schema.dfy ===
/**
 * The shared data model: seat statuses, seat records, the zone → section → row layout
 * configuration, events and the seat-update request, with the constraints their schemas check.
 */
module Schema {
  import opened Wrappers

  /** The four seat states; no other value is representable. */
  datatype SeatStatus = Available | Reserved | Blocked | Pending

  /** The wire spelling of a status. */
  function StatusText(s: SeatStatus): string {
    match s
    case Available => "available"
    case Reserved => "reserved"
    case Blocked => "blocked"
    case Pending => "pending"
  }

  /** The status enum check: accepts exactly the four spellings. */
  function ParseStatus(t: string): (r: Option<SeatStatus>)
    ensures r.Some? ==> StatusText(r.value) == t
    ensures r.None? <==> (forall s: SeatStatus :: StatusText(s) != t)
  {
    if t == "available" then Some(Available)
    else if t == "reserved" then Some(Reserved)
    else if t == "blocked" then Some(Blocked)
    else if t == "pending" then Some(Pending)
    else None
  }

  /** The denormalised position of a seat: zone, section, row and seat number as text. */
  datatype SeatLabel = SeatLabel(zone: string, section: string, row: string, seat: string)

  /** A seat record; `userId` is absent (`undefined` or `null`) when no user is attached. */
  datatype Seat = Seat(id: string, eventId: nat, status: SeatStatus, userId: Option<int>, seatLabel: SeatLabel)

  /** One row: its label, how many seats it has, and optional aisle break points. */
  datatype RowConfig = RowConfig(rowLabel: string, seatCount: nat, aisles: Option<seq<int>>)

  datatype SectionConfig = SectionConfig(name: string, rows: seq<RowConfig>)

  datatype ZoneConfig = ZoneConfig(name: string, sections: seq<SectionConfig>)

  datatype EventConfiguration = EventConfiguration(zones: seq<ZoneConfig>)

  /** The row schema: at least one seat. Labels may be any string, aisles any numbers. */
  predicate ValidRow(r: RowConfig) {
    r.seatCount >= 1
  }

  predicate ValidSection(s: SectionConfig) {
    forall i :: 0 <= i < |s.rows| ==> ValidRow(s.rows[i])
  }

  predicate ValidZone(z: ZoneConfig) {
    forall i :: 0 <= i < |z.sections| ==> ValidSection(z.sections[i])
  }

  /** The configuration schema: every row valid; names and lists are otherwise unconstrained. */
  predicate ValidConfiguration(c: EventConfiguration) {
    forall i :: 0 <= i < |c.zones| ==> ValidZone(c.zones[i])
  }

  /** The body of a create-event request. */
  datatype InsertEvent = InsertEvent(name: string, date: string, venue: string, configuration: EventConfiguration)

  /** A stored event: the request body plus the id assigned on creation. */
  datatype Event = Event(id: nat, name: string, date: string, venue: string, configuration: EventConfiguration)

  /** The body of an update-event request: every field optional. */
  datatype EventUpdate = EventUpdate(
    name: Option<string>, date: Option<string>, venue: Option<string>,
    configuration: Option<EventConfiguration>)

  /** A bulk seat-status request: the ids, one status, an optional user. */
  datatype UpdateSeatStatusRequest = UpdateSeatStatusRequest(ids: seq<string>, status: SeatStatus, userId: Option<int>)

  /** The status spellings round-trip through the enum check. */
  lemma StatusRoundTrip(s: SeatStatus)
    ensures ParseStatus(StatusText(s)) == Some(s)
  {
  }
}

=== FILE: seat_map.dfy ===
/**
 * The seat map's logic: splitting a row's seat numbers into blocks at its aisles, choosing each
 * block's alignment, finding the stored seat for a position, and the stand-in seat shown for a
 * position that has none.
 */
module SeatMap {
  import opened Wrappers
  import opened Decimal
  import opened Schema
  import opened Layout
  import opened SeatTables

  // ---------------------------------------------------------------------------------------
  // Aisle grouping

  /** The seat numbers of a row of `n` seats: 1, 2, …, n. */
  function RowNumbers(n: nat): (r: seq<int>)
    ensures |r| == n && forall i :: 0 <= i < n ==> r[i] == i + 1
  {
    seq(n, i requires 0 <= i < n => i + 1)
  }

  /** The groups written one after another. */
  function Flatten(gs: seq<seq<int>>): seq<int>
    decreases |gs|
  {
    if gs == [] then [] else Flatten(gs[..|gs| - 1]) + gs[|gs| - 1]
  }

  /** The aisle positions of a row; a row without aisles has none. */
  function AislesOf(row: RowConfig): seq<int> {
    row.aisles.GetOr([])
  }

  /** A block ends after seat `k` when an aisle follows it and it is not the row's last seat. */
  predicate EndsGroup(aisles: seq<int>, n: nat, k: int) {
    k in aisles && k < n
  }

  /** The distinct aisle values that split a row of `n` seats. */
  function AisleCuts(aisles: seq<int>, n: nat): set<int> {
    set k | k in aisles && 1 <= k < n
  }

  /** The cuts among the first `i` seats. */
  function CutsUpTo(aisles: seq<int>, n: nat, i: nat): set<int> {
    set k | k in aisles && 1 <= k <= i && k < n
  }

  /**
   * The grouping loop's state after the first `i` seats: the closed blocks and the open one
   * together hold seats 1..i; every closed block is non-empty and ends exactly at its only cut;
   * the open block holds no cut; there is one closed block per cut so far; and the open block is
   * empty exactly when nothing has been seen yet or seat `i` was a cut.
   */
  ghost predicate Grouping(aisles: seq<int>, n: nat, i: nat, groups: seq<seq<int>>, current: seq<int>) {
    && Flatten(groups) + current == RowNumbers(i)
    && (forall j :: 0 <= j < |groups| ==> groups[j] != [])
    && (forall j, m :: 0 <= j < |groups| && 0 <= m < |groups[j]| ==>
          (EndsGroup(aisles, n, groups[j][m]) <==> m == |groups[j]| - 1))
    && (forall m :: 0 <= m < |current| ==> !EndsGroup(aisles, n, current[m]))
    && |groups| == |CutsUpTo(aisles, n, i)|
    && (current == [] <==> i == 0 || EndsGroup(aisles, n, i))
  }

  lemma {:induction false} FlattenAppend(gs: seq<seq<int>>, g: seq<int>)
    ensures Flatten(gs + [g]) == Flatten(gs) + g
  {
    assert (gs + [g])[..|gs|] == gs;
  }

  lemma {:induction false} CutsStep(aisles: seq<int>, n: nat, i: nat)
    ensures CutsUpTo(aisles, n, i + 1)
         == CutsUpTo(aisles, n, i) + (if EndsGroup(aisles, n, i + 1) then {i + 1} else {})
    ensures i + 1 !in CutsUpTo(aisles, n, i)
  {
  }

  lemma {:induction false} CutsCount(aisles: seq<int>, n: nat, i: nat)
    ensures |CutsUpTo(aisles, n, i + 1)|
         == |CutsUpTo(aisles, n, i)| + (if EndsGroup(aisles, n, i + 1) then 1 else 0)
  {
    CutsStep(aisles, n, i);
  }

  /** One step of the loop: push seat `i + 1`, then close the block if an aisle follows it. */
  lemma {:induction false} GroupStep(aisles: seq<int>, n: nat, i: nat, groups: seq<seq<int>>, current: seq<int>,
                                    groups': seq<seq<int>>, current': seq<int>)
    requires Grouping(aisles, n, i, groups, current)
    requires var pushed := current + [i + 1];
      if EndsGroup(aisles, n, i + 1) then groups' == groups + [pushed] && current' == []
      else groups' == groups && current' == pushed
    ensures Grouping(aisles, n, i + 1, groups', current')
  {
    var pushed := current + [i + 1];
    assert RowNumbers(i + 1) == RowNumbers(i) + [i + 1];
    assert Flatten(groups) + pushed == RowNumbers(i + 1);
    CutsCount(aisles, n, i);
    if EndsGroup(aisles, n, i + 1) {
      FlattenAppend(groups, pushed);
      assert forall m :: 0 <= m < |pushed| ==>
        (EndsGroup(aisles, n, pushed[m]) <==> m == |pushed| - 1);
    }
  }

  /** The row's last seat never ends a block, so the open block is kept at the end. */
  lemma {:induction false} GroupingDone(aisles: seq<int>, n: nat, groups: seq<seq<int>>, current: seq<int>)
    requires Grouping(aisles, n, n, groups, current)
    ensures n >= 1 <==> current != []
    ensures CutsUpTo(aisles, n, n) == AisleCuts(aisles, n)
  {
  }

  /**
   * The seat blocks of a row: the blocks written in order give exactly 1..seatCount, no block is
   * empty, a seat ends its block exactly when an aisle value equal to it is below seatCount, and
   * there is one block more than there are distinct such aisle values, so a row without aisles is
   * one block and a row without seats has none.
   */
  method GroupSeats(row: RowConfig) returns (groups: seq<seq<int>>)
    ensures Flatten(groups) == RowNumbers(row.seatCount)
    ensures forall j :: 0 <= j < |groups| ==> groups[j] != []
    ensures forall j, m :: 0 <= j < |groups| && 0 <= m < |groups[j]| ==>
      (EndsGroup(AislesOf(row), row.seatCount, groups[j][m]) <==> m == |groups[j]| - 1 && j < |groups| - 1)
    ensures row.seatCount == 0 ==> groups == []
    ensures row.seatCount >= 1 ==> |groups| == 1 + |AisleCuts(AislesOf(row), row.seatCount)|
    ensures row.seatCount >= 1 && row.aisles.None? ==> |groups| == 1
  {
    var aisles := AislesOf(row);
    var n := row.seatCount;
    groups := [];
    var current: seq<int> := [];
    for i := 0 to n
      invariant Grouping(aisles, n, i, groups, current)
    {
      var groups', current' := groups, current + [i + 1];
      if i + 1 in aisles && i < n - 1 {
        groups', current' := groups + [current'], [];
      }
      GroupStep(aisles, n, i, groups, current, groups', current');
      groups, current := groups', current';
    }
    GroupingDone(aisles, n, groups, current);
    if |current| > 0 {
      FlattenAppend(groups, current);
      groups := groups + [current];
    }
    assert row.aisles.None? ==> AisleCuts(aisles, n) == {};
  }

  // ---------------------------------------------------------------------------------------
  // Block alignment

  /** How a block sits in its share of the row's width. */
  datatype Alignment = JustifyStart | JustifyCenter | JustifyEnd

  /** The first of several blocks hugs the centre from the left, the last from the right. */
  function GroupAlignment(groupIdx: nat, groupCount: nat): Alignment {
    if groupCount > 1 then
      if groupIdx == 0 then JustifyEnd
      else if groupIdx == groupCount - 1 then JustifyStart
      else JustifyCenter
    else JustifyCenter
  }

  /**
   * The alignments are symmetric about the row's middle: block `i` is pushed towards the centre
   * from one side exactly when block `c - 1 - i` is pushed from the other, and a block is
   * centred exactly when its mirror is.
   */
  lemma AlignmentMirror(groupIdx: nat, groupCount: nat)
    requires groupIdx < groupCount
    ensures GroupAlignment(groupIdx, groupCount) == JustifyEnd
        <==> GroupAlignment(groupCount - 1 - groupIdx, groupCount) == JustifyStart
    ensures GroupAlignment(groupIdx, groupCount) == JustifyCenter
        <==> GroupAlignment(groupCount - 1 - groupIdx, groupCount) == JustifyCenter
  {
  }

  /**
   * Only a row of several blocks has a block that is not centred; it has exactly two, the first
   * pushed to its right edge and the last to its left edge, so both hug the row's middle.
   */
  lemma AlignmentEnds(groupCount: nat)
    ensures forall i :: 0 <= i < groupCount && GroupAlignment(i, groupCount) != JustifyCenter ==>
      groupCount > 1 && (i == 0 || i == groupCount - 1)
    ensures groupCount > 1 ==>
      GroupAlignment(0, groupCount) == JustifyEnd && GroupAlignment(groupCount - 1, groupCount) == JustifyStart
  {
  }

  // ---------------------------------------------------------------------------------------
  // Finding a position's seat

  /** A seat's label names zone, section, row and the decimal seat number. */
  predicate LabelMatches(s: Seat, zone: string, section: string, row: string, seatNum: nat) {
    && s.seatLabel.zone == zone
    && s.seatLabel.section == section
    && s.seatLabel.row == row
    && s.seatLabel.seat == NatToString(seatNum)
  }

  /** The index of the first matching seat at or after `from`, if any. */
  function FindFrom(seats: seq<Seat>, zone: string, section: string, row: string, seatNum: nat, from: nat): (r: Option<nat>)
    requires from <= |seats|
    ensures r.Some? ==> from <= r.value < |seats| && LabelMatches(seats[r.value], zone, section, row, seatNum)
    ensures r.Some? ==> forall j :: from <= j < r.value ==> !LabelMatches(seats[j], zone, section, row, seatNum)
    ensures r.None? ==> forall j :: from <= j < |seats| ==> !LabelMatches(seats[j], zone, section, row, seatNum)
    decreases |seats| - from
  {
    if from == |seats| then None
    else if LabelMatches(seats[from], zone, section, row, seatNum) then Some(from)
    else FindFrom(seats, zone, section, row, seatNum, from + 1)
  }

  /** `getSeat`: the first listed seat with the position's label (`Array.find`), if any. */
  function GetSeat(seats: seq<Seat>, zone: string, section: string, row: string, seatNum: nat): (r: Option<Seat>)
    ensures r.Some? ==> r.value in seats && LabelMatches(r.value, zone, section, row, seatNum)
    ensures r.None? <==> forall s :: s in seats ==> !LabelMatches(s, zone, section, row, seatNum)
  {
    match FindFrom(seats, zone, section, row, seatNum, 0)
    case None => None
    case Some(i) => Some(seats[i])
  }

  /** The seat found is the first match: a match preceded by none is the one returned. */
  lemma {:induction false} GetSeatFirst(seats: seq<Seat>, zone: string, section: string, row: string, seatNum: nat, i: nat)
    requires i < |seats| && LabelMatches(seats[i], zone, section, row, seatNum)
    requires forall j :: 0 <= j < i ==> !LabelMatches(seats[j], zone, section, row, seatNum)
    ensures GetSeat(seats, zone, section, row, seatNum) == Some(seats[i])
  {
    var r := FindFrom(seats, zone, section, row, seatNum, 0);
    assert r.Some?;
    assert r.value == i;
  }

  /** The label a position's seat carries. */
  function PositionLabel(zone: string, section: string, row: string, seatNum: nat): SeatLabel {
    SeatLabel(zone, section, row, NatToString(seatNum))
  }

  /**
   * Looking a position up among the seats the store lists for an event finds the seat stored
   * under that position's id, provided that seat carries the position's label (it always does
   * when no name contains `-`; otherwise two positions can share an id).
   */
  lemma {:induction false} GetSeatFindsStored(t: SeatTable, e: nat, zone: string, section: string, row: string, seatNum: nat)
    requires SeatsWellFormed(t)
    requires SeatKey(e, PositionLabel(zone, section, row, seatNum)) in t.entries
    requires t.entries[SeatKey(e, PositionLabel(zone, section, row, seatNum))].eventId == e
    requires t.entries[SeatKey(e, PositionLabel(zone, section, row, seatNum))].seatLabel
          == PositionLabel(zone, section, row, seatNum)
    ensures GetSeat(SeatsOf(t, e), zone, section, row, seatNum)
         == Some(t.entries[SeatKey(e, PositionLabel(zone, section, row, seatNum))])
  {
    var k := SeatKey(e, PositionLabel(zone, section, row, seatNum));
    var s := t.entries[k];
    ValuesOfWellFormed(t);
    assert s in t.Values();
    assert s in SeatsOf(t, e);
    assert LabelMatches(s, zone, section, row, seatNum);
    var r := GetSeat(SeatsOf(t, e), zone, section, row, seatNum);
    assert r.Some?;
    var m := r.value;
    assert m in FilterEvent(t.Values(), e);
    assert m in t.Values() && m.eventId == e;
    assert m.seatLabel == PositionLabel(zone, section, row, seatNum);
    assert m.id == k;
  }

  // ---------------------------------------------------------------------------------------
  // The seat shown for a position

  /** The id of the stand-in for a position without a stored seat. */
  function PlaceholderId(zone: string, section: string, row: string, seatNum: nat): string {
    "temp-" + zone + "-" + section + "-" + row + "-" + NatToString(seatNum)
  }

  /** The seat a position shows and hands to the click handler. */
  function DisplaySeat(seats: seq<Seat>, zone: string, section: string, row: string, seatNum: nat): (s: Seat)
    ensures s.seatLabel == PositionLabel(zone, section, row, seatNum)
  {
    match GetSeat(seats, zone, section, row, seatNum)
    case Some(found) => found
    case None => Seat(PlaceholderId(zone, section, row, seatNum), 0, Available, None,
                      PositionLabel(zone, section, row, seatNum))
  }

  /** The status a position is drawn with: the stored seat's, else available. */
  function DisplayStatus(seats: seq<Seat>, zone: string, section: string, row: string, seatNum: nat): SeatStatus {
    match GetSeat(seats, zone, section, row, seatNum)
    case Some(found) => found.status
    case None => Available
  }

  /**
   * A position shows its stored seat when there is one; otherwise an available stand-in of
   * event 0 without a user, whose id is `temp-zone-section-row-num`. The status drawn is the
   * status of the seat handed to the click handler.
   */
  lemma {:induction false} DisplaySeatCases(seats: seq<Seat>, zone: string, section: string, row: string, seatNum: nat)
    ensures DisplayStatus(seats, zone, section, row, seatNum) == DisplaySeat(seats, zone, section, row, seatNum).status
    ensures (exists s :: s in seats && LabelMatches(s, zone, section, row, seatNum)) ==>
      DisplaySeat(seats, zone, section, row, seatNum) in seats
    ensures (forall s :: s in seats ==> !LabelMatches(s, zone, section, row, seatNum)) ==>
      DisplaySeat(seats, zone, section, row, seatNum)
        == Seat(PlaceholderId(zone, section, row, seatNum), 0, Available, None, PositionLabel(zone, section, row, seatNum))
  {
  }

  /** A stand-in id starts with a letter, a stored id with a digit, so no stored seat has it. */
  lemma {:induction false} PlaceholderNeverStored(t: SeatTable, zone: string, section: string, row: string, seatNum: nat)
    requires SeatsWellFormed(t)
    ensures PlaceholderId(zone, section, row, seatNum) !in t.entries
  {
    var p := PlaceholderId(zone, section, row, seatNum);
    assert p[0] == 't';
    forall k | k in t.entries ensures k[0] != 't' {
      var s := t.entries[k];
      assert k[0] == NatToString(s.eventId)[0];
    }
  }

  // ---------------------------------------------------------------------------------------
  // Status colours

  /** The colour scheme a seat button is drawn in. */
  datatype Swatch = Destructive | Muted | Emerald

  /** `getStatusColor`: reserved and blocked have their own colours; anything else looks available. */
  function StatusSwatch(status: SeatStatus): Swatch {
    match status
    case Reserved => Destructive
    case Blocked => Muted
    case _ => Emerald
  }

  /** The three statuses a click can produce look different; a pending seat looks available. */
  lemma SwatchDistinguishes(a: SeatStatus, b: SeatStatus)
    requires a != Pending && b != Pending
    ensures StatusSwatch(a) == StatusSwatch(b) <==> a == b
    ensures StatusSwatch(Pending) == StatusSwatch(Available)
  {
  }
}

=== FILE: seat_table.dfy ===
/**
 * The seat table of the in-memory store as a value: what each of its bulk writes does to the
 * ordered map from seat id to seat. The store's methods are proved to perform exactly these.
 */
module SeatTables {
  import opened Wrappers
  import opened Schema
  import opened Layout
  import opened OrderedMaps

  type SeatTable = OrderedMap<string, Seat>

  /** Every key is its seat's id, and that id is built from the seat's event and label. */
  ghost predicate SeatsWellFormed(t: SeatTable) {
    && t.Valid()
    && forall k :: k in t.entries ==>
         t.entries[k].id == k && k == SeatKey(t.entries[k].eventId, t.entries[k].seatLabel)
  }

  // ---------------------------------------------------------------------------------------
  // Writing generated seats

  /** `map.set(s.id, s)` for every seat of `ss`, in order. */
  function PutAll(t: SeatTable, ss: seq<Seat>): (r: SeatTable)
    ensures t.Valid() ==> r.Valid()
    decreases |ss|
  {
    if ss == [] then t
    else
      var s := ss[|ss| - 1];
      PutAll(t, ss[..|ss| - 1]).Set(s.id, s)
  }

  /** The last seat of `ss` that has id `k`: the one whose write survives. */
  function LastWithId(ss: seq<Seat>, k: string): (s: Seat)
    requires k in IdsOf(ss)
    ensures s in ss && s.id == k
    decreases |ss|
  {
    var last := ss[|ss| - 1];
    assert IdsOf(ss) == IdsOf(ss[..|ss| - 1]) + [last.id];
    if last.id == k then last else LastWithId(ss[..|ss| - 1], k)
  }

  /** A seat that no later seat of the sequence shares its id with is the one that survives. */
  lemma {:induction false} LastWithIdAt(ss: seq<Seat>, i: nat)
    requires i < |ss|
    requires forall j :: i < j < |ss| ==> ss[j].id != ss[i].id
    ensures ss[i].id in IdsOf(ss) && LastWithId(ss, ss[i].id) == ss[i]
    decreases |ss|
  {
    if i < |ss| - 1 {
      LastWithIdAt(ss[..|ss| - 1], i);
    }
  }

  lemma {:induction false} PutAllConcat(t: SeatTable, a: seq<Seat>, b: seq<Seat>)
    ensures PutAll(t, a + b) == PutAll(PutAll(t, a), b)
    decreases |b|
  {
    if b == [] {
      assert a + b == a;
    } else {
      assert (a + b)[..|a + b| - 1] == a + b[..|b| - 1];
      PutAllConcat(t, a, b[..|b| - 1]);
    }
  }

  /**
   * Last write wins: after writing `ss`, an id written by `ss` holds the last seat written
   * with it, and every other key is exactly as before.
   */
  lemma {:induction false} PutAllLookup(t: SeatTable, ss: seq<Seat>, k: string)
    ensures k in PutAll(t, ss).entries <==> k in t.entries || k in IdsOf(ss)
    ensures k in IdsOf(ss) ==> PutAll(t, ss).entries[k] == LastWithId(ss, k)
    ensures k !in IdsOf(ss) && k in t.entries ==> PutAll(t, ss).entries[k] == t.entries[k]
    decreases |ss|
  {
    if ss != [] {
      var s := ss[|ss| - 1];
      assert IdsOf(ss) == IdsOf(ss[..|ss| - 1]) + [s.id];
      PutAllLookup(t, ss[..|ss| - 1], k);
      assert PutAll(t, ss).Get(k) == if k == s.id then Some(s) else PutAll(t, ss[..|ss| - 1]).Get(k);
    }
  }

  /** Writing seats whose ids are all new appends those ids, in order, to the key order. */
  lemma {:induction false} PutAllFreshKeys(t: SeatTable, ss: seq<Seat>)
    requires Distinct(IdsOf(ss))
    requires forall k :: k in IdsOf(ss) ==> k !in t.entries
    ensures PutAll(t, ss).keys == t.keys + IdsOf(ss)
    decreases |ss|
  {
    if ss != [] {
      var s := ss[|ss| - 1];
      var p := ss[..|ss| - 1];
      assert IdsOf(ss) == IdsOf(p) + [s.id];
      assert Distinct(IdsOf(p));
      PutAllFreshKeys(t, p);
      PutAllLookup(t, p, s.id);
    }
  }

  /** `new Map(ss.map(s => [s.id, s]))`: keyed by id, a later seat replacing an earlier one with the same id. */
  function SeatsById(ss: seq<Seat>): (m: map<string, Seat>)
    ensures forall k :: k in m <==> k in IdsOf(ss)
    ensures forall k :: k in m ==> m[k] == LastWithId(ss, k)
    decreases |ss|
  {
    if ss == [] then map[]
    else
      var s := ss[|ss| - 1];
      assert IdsOf(ss) == IdsOf(ss[..|ss| - 1]) + [s.id];
      SeatsById(ss[..|ss| - 1])[s.id := s]
  }

  // ---------------------------------------------------------------------------------------
  // Carrying statuses across a layout edit

  /** The regenerated seat keeps only the status of the earlier seat with its id. */
  function Carry(prior: map<string, Seat>, s: Seat): Seat {
    s.(status := if s.id in prior then prior[s.id].status else Available)
  }

  function CarryAll(prior: map<string, Seat>, ss: seq<Seat>): (r: seq<Seat>)
    ensures |r| == |ss|
    ensures forall i :: 0 <= i < |ss| ==> r[i] == Carry(prior, ss[i])
    decreases |ss|
  {
    if ss == [] then [] else CarryAll(prior, ss[..|ss| - 1]) + [Carry(prior, ss[|ss| - 1])]
  }

  lemma CarryAllConcat(prior: map<string, Seat>, a: seq<Seat>, b: seq<Seat>)
    ensures CarryAll(prior, a + b) == CarryAll(prior, a) + CarryAll(prior, b)
  {
  }

  /** With nothing to carry, generated (available) seats are written unchanged. */
  lemma CarryNothing(ss: seq<Seat>)
    requires forall s :: s in ss ==> s.status == Available
    ensures CarryAll(map[], ss) == ss
  {
  }

  lemma {:induction false} CarriedLast(prior: map<string, Seat>, ss: seq<Seat>, k: string)
    requires k in IdsOf(ss)
    ensures k in IdsOf(CarryAll(prior, ss))
    ensures LastWithId(CarryAll(prior, ss), k) == Carry(prior, LastWithId(ss, k))
    decreases |ss|
  {
    var c := CarryAll(prior, ss);
    assert IdsOf(ss) == IdsOf(ss[..|ss| - 1]) + [ss[|ss| - 1].id];
    assert c[..|c| - 1] == CarryAll(prior, ss[..|ss| - 1]);
    assert IdsOf(c) == IdsOf(c[..|c| - 1]) + [c[|c| - 1].id];
    if ss[|ss| - 1].id != k {
      CarriedLast(prior, ss[..|ss| - 1], k);
    }
  }

  // ---------------------------------------------------------------------------------------
  // Selecting one event's seats

  /** The keys of `ks`, in order, whose seat does (`want`) or does not (`!want`) belong to `e`. */
  function SelectKeys(ks: seq<string>, entries: map<string, Seat>, e: nat, want: bool): (r: seq<string>)
    requires forall k :: k in ks ==> k in entries
    ensures forall k :: k in r <==> k in ks && (entries[k].eventId == e) == want
    ensures Distinct(ks) ==> Distinct(r)
    decreases |ks|
  {
    if ks == [] then []
    else
      var k := ks[|ks| - 1];
      var rest := SelectKeys(ks[..|ks| - 1], entries, e, want);
      assert Distinct(ks) ==> k !in ks[..|ks| - 1];
      if (entries[k].eventId == e) == want then rest + [k] else rest
  }

  lemma {:induction false} SelectKeysConcat(a: seq<string>, b: seq<string>, entries: map<string, Seat>, e: nat, want: bool)
    requires forall k :: k in a + b ==> k in entries
    ensures SelectKeys(a + b, entries, e, want) == SelectKeys(a, entries, e, want) + SelectKeys(b, entries, e, want)
    decreases |b|
  {
    if b == [] {
      assert a + b == a;
    } else {
      assert (a + b)[..|a + b| - 1] == a + b[..|b| - 1];
      SelectKeysConcat(a, b[..|b| - 1], entries, e, want);
    }
  }

  /** The table with every seat of event `e` deleted; the other keys keep their order. */
  function WithoutEvent(t: SeatTable, e: nat): (r: SeatTable)
    requires t.Valid()
    ensures r.Valid()
    ensures forall k :: k in r.entries <==> k in t.entries && t.entries[k].eventId != e
    ensures forall k :: k in r.entries ==> r.entries[k] == t.entries[k]
  {
    OrderedMap(SelectKeys(t.keys, t.entries, e, false),
               map k | k in t.entries && t.entries[k].eventId != e :: t.entries[k])
  }

  /**
   * The table once a walk in key order, deleting every seat of event `e` it meets, has visited
   * the first `i` keys: the visited keys not of `e` in order, then the unvisited keys.
   */
  function Scanned(t: SeatTable, e: nat, i: nat): (r: SeatTable)
    requires t.Valid() && i <= |t.keys|
  {
    OrderedMap(SelectKeys(t.keys[..i], t.entries, e, false) + t.keys[i..], ScanKept(t.entries, e, t.keys[..i]))
  }

  /** The entries left once the keys `visited` have been walked. */
  function ScanKept(entries: map<string, Seat>, e: nat, visited: seq<string>): map<string, Seat> {
    map k | k in entries && (k !in visited || entries[k].eventId != e) :: entries[k]
  }

  /** Before the walk, nothing is deleted. */
  lemma {:induction false} ScannedStart(t: SeatTable, e: nat)
    requires t.Valid()
    ensures Scanned(t, e, 0) == t
  {
    assert t.keys[..0] == [] && t.keys[0..] == t.keys;
    var m := Scanned(t, e, 0).entries;
    assert m.Keys == t.entries.Keys;
  }

  lemma {:induction false} ScannedKeysStep(t: SeatTable, e: nat, i: nat)
    requires t.Valid() && i < |t.keys|
    ensures Scanned(t, e, i + 1).keys
         == if t.entries[t.keys[i]].eventId == e then Without(Scanned(t, e, i).keys, t.keys[i]) else Scanned(t, e, i).keys
  {
    var ks, k := t.keys, t.keys[i];
    var kept := SelectKeys(ks[..i], t.entries, e, false);
    assert ks[..i + 1][..i] == ks[..i];
    assert ks[i..] == [k] + ks[i + 1..];
    if t.entries[k].eventId == e {
      WithoutNext(kept, ks, i);
    } else {
      assert (kept + [k]) + ks[i + 1..] == kept + ([k] + ks[i + 1..]);
    }
  }

  lemma {:induction false} ScanKeptStep(entries: map<string, Seat>, e: nat, visited: seq<string>, k: string)
    requires k in entries && k !in visited
    ensures k in ScanKept(entries, e, visited) && ScanKept(entries, e, visited)[k] == entries[k]
    ensures ScanKept(entries, e, visited + [k])
         == if entries[k].eventId == e then ScanKept(entries, e, visited) - {k} else ScanKept(entries, e, visited)
  {
    var a, b := ScanKept(entries, e, visited), ScanKept(entries, e, visited + [k]);
    forall x ensures x in visited + [k] <==> x in visited || x == k {
    }
    if entries[k].eventId == e {
      assert b.Keys == (a - {k}).Keys;
    } else {
      assert b.Keys == a.Keys;
    }
  }

  lemma {:induction false} ScannedEntriesStep(t: SeatTable, e: nat, i: nat)
    requires t.Valid() && i < |t.keys|
    ensures t.keys[i] in Scanned(t, e, i).entries
    ensures Scanned(t, e, i).entries[t.keys[i]] == t.entries[t.keys[i]]
    ensures Scanned(t, e, i + 1).entries
         == if t.entries[t.keys[i]].eventId == e then Scanned(t, e, i).entries - {t.keys[i]} else Scanned(t, e, i).entries
  {
    DistinctAt(t.keys, i);
    assert t.keys[..i + 1] == t.keys[..i] + [t.keys[i]];
    ScanKeptStep(t.entries, e, t.keys[..i], t.keys[i]);
  }

  /** Visiting one more key: its seat is still the original one, and it goes exactly if it belongs to `e`. */
  lemma {:induction false} ScannedStep(t: SeatTable, e: nat, i: nat)
    requires t.Valid() && i < |t.keys|
    ensures t.keys[i] in Scanned(t, e, i).entries
    ensures Scanned(t, e, i).entries[t.keys[i]] == t.entries[t.keys[i]]
    ensures Scanned(t, e, i + 1)
         == if t.entries[t.keys[i]].eventId == e then Scanned(t, e, i).Delete(t.keys[i]) else Scanned(t, e, i)
  {
    ScannedKeysStep(t, e, i);
    ScannedEntriesStep(t, e, i);
  }

  /** After visiting every key, exactly the seats of `e` are gone. */
  lemma {:induction false} ScannedAll(t: SeatTable, e: nat)
    requires t.Valid()
    ensures Scanned(t, e, |t.keys|) == WithoutEvent(t, e)
  {
    assert t.keys[..|t.keys|] == t.keys && t.keys[|t.keys|..] == [];
    var a, b := Scanned(t, e, |t.keys|).entries, WithoutEvent(t, e).entries;
    assert a.Keys == b.Keys;
  }

  /** The seats of event `e` keyed by id: what reconciliation reads old statuses from. */
  function EventSeatMap(t: SeatTable, e: nat): (m: map<string, Seat>)
    ensures forall k :: k in m <==> k in t.entries && t.entries[k].eventId == e
    ensures forall k :: k in m ==> m[k] == t.entries[k]
  {
    map k | k in t.entries && t.entries[k].eventId == e :: t.entries[k]
  }

  /** The seats of `ss` that belong to event `e`, in order. */
  function FilterEvent(ss: seq<Seat>, e: nat): (r: seq<Seat>)
    ensures forall s :: s in r <==> s in ss && s.eventId == e
    decreases |ss|
  {
    if ss == [] then []
    else
      var s := ss[|ss| - 1];
      var rest := FilterEvent(ss[..|ss| - 1], e);
      if s.eventId == e then rest + [s] else rest
  }

  /** Filtering keeps ids distinct. */
  lemma {:induction false} FilterEventDistinct(ss: seq<Seat>, e: nat)
    requires Distinct(IdsOf(ss))
    ensures Distinct(IdsOf(FilterEvent(ss, e)))
    decreases |ss|
  {
    if ss != [] {
      var s := ss[|ss| - 1];
      var p := ss[..|ss| - 1];
      var rest := FilterEvent(p, e);
      assert IdsOf(ss) == IdsOf(p) + [s.id];
      assert Distinct(IdsOf(p));
      FilterEventDistinct(p, e);
      if s.eventId == e {
        assert s.id !in IdsOf(p);
        assert IdsOf(rest + [s]) == IdsOf(rest) + [s.id];
        forall x | x in IdsOf(rest) ensures x != s.id {
          var j :| 0 <= j < |IdsOf(rest)| && IdsOf(rest)[j] == x;
          assert rest[j] in p;
          var q :| 0 <= q < |p| && p[q] == rest[j];
          assert IdsOf(p)[q] == x;
        }
        DistinctAppend(IdsOf(rest), s.id);
      }
    }
  }

  lemma {:induction false} FilterEventConcat(a: seq<Seat>, b: seq<Seat>, e: nat)
    ensures FilterEvent(a + b, e) == FilterEvent(a, e) + FilterEvent(b, e)
    decreases |b|
  {
    if b == [] {
      assert a + b == a;
    } else {
      assert (a + b)[..|a + b| - 1] == a + b[..|b| - 1];
      FilterEventConcat(a, b[..|b| - 1], e);
    }
  }

  /** `Array.from(seats.values()).filter(s => s.eventId === e)`. */
  function SeatsOf(t: SeatTable, e: nat): seq<Seat>
    requires t.Valid()
  {
    FilterEvent(t.Values(), e)
  }

  // ---------------------------------------------------------------------------------------
  // Status-only writes

  /** Every seat of `chosen` that exists and belongs to event `e` gets status `st`; nothing else changes. */
  function StatusWritten(entries: map<string, Seat>, e: nat, chosen: seq<string>, st: SeatStatus): (r: map<string, Seat>)
    ensures r.Keys == entries.Keys
    ensures forall k :: k in r ==> r[k] == entries[k].(status := r[k].status)
  {
    map k | k in entries :: if k in chosen && entries[k].eventId == e then entries[k].(status := st) else entries[k]
  }

  /** Choosing no ids writes nothing. */
  lemma {:induction false} StatusWrittenNone(entries: map<string, Seat>, e: nat, st: SeatStatus)
    ensures StatusWritten(entries, e, [], st) == entries
  {
    var m := StatusWritten(entries, e, [], st);
    assert forall k :: k in m ==> m[k] == entries[k];
  }

  /** The seats an update returns: one per requested id that exists and belongs to `e`, in request order. */
  function WrittenList(entries: map<string, Seat>, e: nat, ids: seq<string>, st: SeatStatus): (r: seq<Seat>)
    ensures |r| <= |ids|
    ensures forall s :: s in r ==> s.status == st && s.eventId == e
    decreases |ids|
  {
    if ids == [] then []
    else
      var k := ids[|ids| - 1];
      WrittenList(entries, e, ids[..|ids| - 1], st)
        + if k in entries && entries[k].eventId == e then [entries[k].(status := st)] else []
  }

  /** Each seat of `ss` with status `st`. */
  function WithStatus(ss: seq<Seat>, st: SeatStatus): (r: seq<Seat>)
    ensures |r| == |ss|
    ensures forall i :: 0 <= i < |ss| ==> r[i] == ss[i].(status := st)
    decreases |ss|
  {
    if ss == [] then [] else WithStatus(ss[..|ss| - 1], st) + [ss[|ss| - 1].(status := st)]
  }

  lemma {:induction false} FilterEventAll(ss: seq<Seat>, e: nat)
    requires forall s :: s in ss ==> s.eventId == e
    ensures FilterEvent(ss, e) == ss
    decreases |ss|
  {
    if ss != [] {
      FilterEventAll(ss[..|ss| - 1], e);
      assert ss[..|ss| - 1] + [ss[|ss| - 1]] == ss;
    }
  }

  lemma {:induction false} FilterEventNone(ss: seq<Seat>, e: nat)
    requires forall s :: s in ss ==> s.eventId != e
    ensures FilterEvent(ss, e) == []
    decreases |ss|
  {
    if ss != [] {
      FilterEventNone(ss[..|ss| - 1], e);
    }
  }

  /** In a well-formed table the values, in order, carry exactly the keys, in order. */
  lemma {:induction false} ValuesOfWellFormed(t: SeatTable)
    requires SeatsWellFormed(t)
    ensures IdsOf(t.Values()) == t.keys
    ensures forall s :: s in t.Values() <==> s.id in t.entries && t.entries[s.id] == s
  {
    var vs := t.Values();
    assert IdsOf(vs) == t.keys;
    forall s: Seat | s.id in t.entries && t.entries[s.id] == s ensures s in vs {
      var i :| 0 <= i < |t.keys| && t.keys[i] == s.id;
      assert vs[i] == s;
    }
  }

  lemma {:induction false} SeatsByIdWithin(t: SeatTable, e: nat)
    requires SeatsWellFormed(t)
    ensures forall k :: k in SeatsById(SeatsOf(t, e)) ==>
      k in EventSeatMap(t, e) && SeatsById(SeatsOf(t, e))[k] == EventSeatMap(t, e)[k]
  {
    var ss := SeatsOf(t, e);
    ValuesOfWellFormed(t);
    forall k | k in SeatsById(ss) ensures k in t.entries && t.entries[k] == LastWithId(ss, k) {
      assert LastWithId(ss, k) in t.Values();
    }
  }

  lemma {:induction false} SeatsByIdCovers(t: SeatTable, e: nat)
    requires SeatsWellFormed(t)
    ensures forall k :: k in EventSeatMap(t, e) ==> k in SeatsById(SeatsOf(t, e))
  {
    var ss := SeatsOf(t, e);
    ValuesOfWellFormed(t);
    forall k | k in t.entries && t.entries[k].eventId == e ensures k in IdsOf(ss) {
      assert t.entries[k] in ss;
      var i :| 0 <= i < |ss| && ss[i] == t.entries[k];
      assert IdsOf(ss)[i] == k;
    }
  }

  /** In a well-formed table, keying one event's listed seats by id recovers exactly that event's entries. */
  lemma {:induction false} SeatsByIdOfEvent(t: SeatTable, e: nat)
    requires SeatsWellFormed(t)
    ensures SeatsById(SeatsOf(t, e)) == EventSeatMap(t, e)
  {
    SeatsByIdWithin(t, e);
    SeatsByIdCovers(t, e);
  }

  /** A status write depends only on which of the event's stored seats were chosen. */
  lemma {:induction false} StatusWrittenSameChoice(entries: map<string, Seat>, e: nat, a: seq<string>, b: seq<string>, st: SeatStatus)
    requires forall k :: k in entries && entries[k].eventId == e ==> (k in a <==> k in b)
    ensures StatusWritten(entries, e, a, st) == StatusWritten(entries, e, b, st)
  {
  }

  /** Writing over the listed seats of an event reaches every stored seat of it. */
  lemma {:induction false} ResetCoversEvent(t: SeatTable, e: nat)
    requires SeatsWellFormed(t)
    ensures StatusWritten(t.entries, e, IdsOf(SeatsOf(t, e)), Available) == StatusWritten(t.entries, e, t.keys, Available)
  {
    SeatsByIdCovers(t, e);
    StatusWrittenSameChoice(t.entries, e, IdsOf(SeatsOf(t, e)), t.keys, Available);
  }

  /** One more requested id: the table changes at that seat alone, and only if it qualifies. */
  lemma {:induction false} StatusWrittenStep(entries: map<string, Seat>, cur: map<string, Seat>, e: nat, ids: seq<string>, k: string, st: SeatStatus)
    requires cur == StatusWritten(entries, e, ids, st)
    ensures StatusWritten(entries, e, ids + [k], st)
         == if k in cur && cur[k].eventId == e then cur[k := cur[k].(status := st)] else cur
  {
    var m := StatusWritten(entries, e, ids + [k], st);
    var want := if k in cur && cur[k].eventId == e then cur[k := cur[k].(status := st)] else cur;
    forall x | x in m ensures x in want && m[x] == want[x] {
      assert x in ids + [k] <==> x in ids || x == k;
    }
    assert m.Keys == want.Keys;
  }

  /** One more requested id: the returned list grows by that seat, if it qualifies. */
  lemma {:induction false} WrittenListStep(entries: map<string, Seat>, cur: map<string, Seat>, e: nat, ids: seq<string>, k: string, st: SeatStatus)
    requires cur == StatusWritten(entries, e, ids, st)
    ensures WrittenList(entries, e, ids + [k], st)
         == WrittenList(entries, e, ids, st) + if k in cur && cur[k].eventId == e then [cur[k].(status := st)] else []
  {
    assert (ids + [k])[..|ids|] == ids;
  }

  /** Every listed seat of an event is the stored seat under its own id. */
  lemma {:induction false} ListedSeat(t: SeatTable, e: nat, s: Seat)
    requires SeatsWellFormed(t) && s in SeatsOf(t, e)
    ensures s.id in t.entries && t.entries[s.id] == s && s.eventId == e
  {
    ValuesOfWellFormed(t);
  }

  lemma {:induction false} WithStatusStep(ss: seq<Seat>, i: nat, st: SeatStatus)
    requires i < |ss|
    ensures WithStatus(ss[..i + 1], st) == WithStatus(ss[..i], st) + [ss[i].(status := st)]
  {
    assert ss[..i + 1][..i] == ss[..i];
  }

  /** One more listed seat given status `st`: its stored entry changes and nothing else does. */
  lemma {:induction false} ListedStep(entries: map<string, Seat>, e: nat, ss: seq<Seat>, i: nat, cur: map<string, Seat>, st: SeatStatus)
    requires i < |ss|
    requires ss[i].id in entries && entries[ss[i].id] == ss[i] && ss[i].eventId == e
    requires cur == StatusWritten(entries, e, IdsOf(ss[..i]), st)
    ensures ss[i].id in cur
    ensures StatusWritten(entries, e, IdsOf(ss[..i + 1]), st) == cur[ss[i].id := ss[i].(status := st)]
  {
    var s := ss[i];
    var p := ss[..i];
    assert ss[..i + 1] == p + [s];
    assert IdsOf(p + [s]) == IdsOf(p) + [s.id];
    StatusWrittenStep(entries, cur, e, IdsOf(p), s.id, st);
  }

  // ---------------------------------------------------------------------------------------
  // Order of the listings

  /** The seats stored under the keys `ks`, in the order of `ks`. */
  function SeatsAt(ks: seq<string>, entries: map<string, Seat>): (r: seq<Seat>)
    requires forall k :: k in ks ==> k in entries
    ensures |r| == |ks| && forall i :: 0 <= i < |ks| ==> r[i] == entries[ks[i]]
  {
    seq(|ks|, i requires 0 <= i < |ks| => entries[ks[i]])
  }

  lemma {:induction false} SeatsAtSnoc(ks: seq<string>, k: string, entries: map<string, Seat>)
    requires forall x :: x in ks + [k] ==> x in entries
    ensures SeatsAt(ks + [k], entries) == SeatsAt(ks, entries) + [entries[k]]
  {
  }

  /**
   * Dropping the keys of event `e` changes neither which seats of another event `e'` a walk over
   * the keys meets nor the order it meets them in.
   */
  lemma {:induction false} SelectOtherFilter(ks: seq<string>, entries: map<string, Seat>, w: map<string, Seat>, e: nat, e': nat)
    requires e != e'
    requires forall k :: k in ks ==> k in entries
    requires forall k :: k in entries && entries[k].eventId != e ==> k in w && w[k] == entries[k]
    ensures FilterEvent(SeatsAt(SelectKeys(ks, entries, e, false), w), e') == FilterEvent(SeatsAt(ks, entries), e')
    decreases |ks|
  {
    if ks != [] {
      var p, k := ks[..|ks| - 1], ks[|ks| - 1];
      assert ks == p + [k];
      SelectOtherFilter(p, entries, w, e, e');
      var sel := SelectKeys(p, entries, e, false);
      SeatsAtSnoc(p, k, entries);
      FilterEventConcat(SeatsAt(p, entries), [entries[k]], e');
      if entries[k].eventId != e {
        SeatsAtSnoc(sel, k, w);
        FilterEventConcat(SeatsAt(sel, w), [w[k]], e');
      }
    }
  }

  /** Walking keys that are their seats' ids, the seats of `e` met carry exactly the keys of `e`, in order. */
  lemma {:induction false} IdsOfFilterAt(ks: seq<string>, entries: map<string, Seat>, e: nat)
    requires forall k :: k in ks ==> k in entries && entries[k].id == k
    ensures IdsOf(FilterEvent(SeatsAt(ks, entries), e)) == SelectKeys(ks, entries, e, true)
    decreases |ks|
  {
    if ks != [] {
      var p, k := ks[..|ks| - 1], ks[|ks| - 1];
      assert ks == p + [k];
      IdsOfFilterAt(p, entries, e);
      SeatsAtSnoc(p, k, entries);
      var f := FilterEvent(SeatsAt(p, entries), e);
      FilterEventConcat(SeatsAt(p, entries), [entries[k]], e);
      if entries[k].eventId == e {
        assert IdsOf(f + [entries[k]]) == IdsOf(f) + [k];
      }
    }
  }

  /** An event's listed seats come in the map's key order: their ids are the event's keys, in order. */
  lemma {:induction false} SeatsOfKeyOrder(t: SeatTable, e: nat)
    requires SeatsWellFormed(t)
    ensures IdsOf(SeatsOf(t, e)) == SelectKeys(t.keys, t.entries, e, true)
  {
    assert t.Values() == SeatsAt(t.keys, t.entries);
    IdsOfFilterAt(t.keys, t.entries, e);
  }

  /** Deleting one event's seats leaves every other event's listing as it was, order included. */
  lemma {:induction false} WithoutEventListing(t: SeatTable, e: nat, e': nat)
    requires t.Valid() && e != e'
    ensures SeatsOf(WithoutEvent(t, e), e') == SeatsOf(t, e')
  {
    var w := WithoutEvent(t, e);
    assert w.Values() == SeatsAt(w.keys, w.entries);
    assert t.Values() == SeatsAt(t.keys, t.entries);
    SelectOtherFilter(t.keys, t.entries, w.entries, e, e');
  }
}

=== FILE: storage.dfy ===
/**
 * The in-memory store: a table of events keyed by number, a table of seats keyed by seat id,
 * and the counter that numbers new events.
 */
module Storage {
  import opened Wrappers
  import opened Decimal
  import opened Schema
  import opened Layout
  import opened OrderedMaps
  import opened SeatTables

  type EventTable = OrderedMap<nat, Event>

  /** Ascending order, hence no repetition. */
  ghost predicate Increasing(ks: seq<nat>) {
    forall i, j :: 0 <= i < j < |ks| ==> ks[i] < ks[j]
  }

  /** Events sit under their own id, every id is below the counter, and insertion order is id order. */
  ghost predicate EventsWellFormed(events: EventTable, nextId: nat) {
    && events.Valid()
    && nextId >= 1
    && Increasing(events.keys)
    && forall id :: id in events.entries ==> 1 <= id < nextId && events.entries[id].id == id
  }

  /** The ids of the stored seats of event `e`. */
  ghost function EventSeatIds(entries: map<string, Seat>, e: nat): set<string> {
    set k | k in entries && entries[k].eventId == e
  }

  /** Every seat belongs to a stored event, and each event's seat ids are exactly its layout's ids. */
  ghost predicate SeatsFollowLayouts(events: EventTable, seats: SeatTable) {
    && (forall k :: k in seats.entries ==> seats.entries[k].eventId in events.entries)
    && forall e :: e in events.entries ==>
         EventSeatIds(seats.entries, e) == LayoutIds(e, events.entries[e].configuration)
  }

  ghost predicate StoreInvariant(events: EventTable, seats: SeatTable, nextId: nat) {
    EventsWellFormed(events, nextId) && SeatsWellFormed(seats) && SeatsFollowLayouts(events, seats)
  }

  /** `{ ...insertEvent, id }` */
  function NewEvent(ins: InsertEvent, id: nat): (ev: Event)
    ensures ev.id == id && ev.configuration == ins.configuration
    ensures ev.name == ins.name && ev.date == ins.date && ev.venue == ins.venue
  {
    Event(id, ins.name, ins.date, ins.venue, ins.configuration)
  }

  /** `{ ...existing, ...updates }`: fields present in the update replace, the id never changes. */
  function Merge(existing: Event, u: EventUpdate): (r: Event)
    ensures r.id == existing.id
    ensures r.configuration == u.configuration.GetOr(existing.configuration)
    ensures r.name == u.name.GetOr(existing.name) && r.date == u.date.GetOr(existing.date)
    ensures r.venue == u.venue.GetOr(existing.venue)
  {
    Event(existing.id, u.name.GetOr(existing.name), u.date.GetOr(existing.date),
          u.venue.GetOr(existing.venue), u.configuration.GetOr(existing.configuration))
  }

  /** An update that carries no field leaves the event as it was. */
  lemma MergeNothing(existing: Event)
    ensures Merge(existing, EventUpdate(None, None, None, None)) == existing
  {
  }

  /** Applying the same update twice gives what applying it once gives. */
  lemma MergeIdempotent(existing: Event, u: EventUpdate)
    ensures Merge(Merge(existing, u), u) == Merge(existing, u)
  {
  }

  /** A later update overrides an earlier one field by field: two merges are one merge of the combined update. */
  lemma MergeTwice(existing: Event, u: EventUpdate, v: EventUpdate)
    ensures Merge(Merge(existing, u), v)
         == Merge(existing, EventUpdate(if v.name.Some? then v.name else u.name,
                                        if v.date.Some? then v.date else u.date,
                                        if v.venue.Some? then v.venue else u.venue,
                                        if v.configuration.Some? then v.configuration else u.configuration))
  {
  }

  /**
   * The seat table after reconciling event `e` with configuration `c`: its old seats removed,
   * then the layout written with each seat keeping the status of the old seat with its id.
   */
  function Regenerated(t: SeatTable, e: nat, c: EventConfiguration): (r: SeatTable)
    requires t.Valid()
    ensures r.Valid()
  {
    PutAll(WithoutEvent(t, e), CarryAll(SeatsById(SeatsOf(t, e)), Expand(e, c)))
  }

  // ---------------------------------------------------------------------------------------
  // The invariant is kept by every write

  lemma {:induction false} PutLayoutEffect(t: SeatTable, ss: seq<Seat>, e: nat)
    requires SeatsWellFormed(t)
    requires forall k :: k in t.entries ==> t.entries[k].eventId != e
    requires forall s :: s in ss ==> s.eventId == e && s.id == SeatKey(e, s.seatLabel)
    ensures SeatsWellFormed(PutAll(t, ss))
    ensures EventSeatIds(PutAll(t, ss).entries, e) == set k | k in IdsOf(ss)
    ensures forall e' :: e' != e ==> EventSeatIds(PutAll(t, ss).entries, e') == EventSeatIds(t.entries, e')
    ensures forall k :: k in PutAll(t, ss).entries ==> k in t.entries || PutAll(t, ss).entries[k].eventId == e
    ensures forall k :: k in t.entries ==> k in PutAll(t, ss).entries && PutAll(t, ss).entries[k] == t.entries[k]
  {
    var r := PutAll(t, ss);
    forall k | k in IdsOf(ss) ensures k !in t.entries {
      if k in t.entries {
        var s := LastWithId(ss, k);
        SeatKeyDeterminesEvent(e, s.seatLabel, t.entries[k].eventId, t.entries[k].seatLabel);
      }
    }
    forall k | k in t.entries ensures k in r.entries && r.entries[k] == t.entries[k] {
      PutAllLookup(t, ss, k);
    }
    forall k | k in r.entries
      ensures r.entries[k].id == k && k == SeatKey(r.entries[k].eventId, r.entries[k].seatLabel)
      ensures k in t.entries || r.entries[k].eventId == e
    {
      PutAllLookup(t, ss, k);
    }
    forall k ensures k in EventSeatIds(r.entries, e) <==> k in IdsOf(ss) {
      PutAllLookup(t, ss, k);
    }
    forall e' | e' != e ensures EventSeatIds(r.entries, e') == EventSeatIds(t.entries, e') {
      forall k ensures k in EventSeatIds(r.entries, e') <==> k in EventSeatIds(t.entries, e') {
        PutAllLookup(t, ss, k);
      }
    }
  }

  lemma {:induction false} EventsAfterCreate(events: EventTable, nextId: nat, ev: Event)
    requires EventsWellFormed(events, nextId)
    requires ev.id == nextId
    ensures nextId !in events.entries
    ensures EventsWellFormed(events.Set(nextId, ev), nextId + 1)
  {
    var events' := events.Set(nextId, ev);
    assert events'.keys == events.keys + [nextId];
    forall i, j | 0 <= i < j < |events'.keys| ensures events'.keys[i] < events'.keys[j] {
      if j == |events.keys| {
        assert events.keys[i] in events.entries;
      }
    }
  }

  /**
   * Writing event `e`'s layout into a table holding no seat of `e`, where every other event's
   * seats already follow its layout, makes the whole table follow the layouts.
   */
  lemma {:induction false} LayoutWritten(events': EventTable, base: SeatTable, ss: seq<Seat>, e: nat, c: EventConfiguration)
    requires SeatsWellFormed(base)
    requires forall k :: k in base.entries ==> base.entries[k].eventId != e && base.entries[k].eventId in events'.entries
    requires e in events'.entries && events'.entries[e].configuration == c
    requires forall e' :: e' in events'.entries && e' != e ==>
      EventSeatIds(base.entries, e') == LayoutIds(e', events'.entries[e'].configuration)
    requires forall s :: s in ss ==> s.eventId == e && s.id == SeatKey(e, s.seatLabel)
    requires IdsOf(ss) == IdsOf(Expand(e, c))
    ensures SeatsWellFormed(PutAll(base, ss)) && SeatsFollowLayouts(events', PutAll(base, ss))
  {
    PutLayoutEffect(base, ss, e);
    var r := PutAll(base, ss);
    forall k | k in r.entries ensures r.entries[k].eventId in events'.entries {
      if k in base.entries {
        assert r.entries[k] == base.entries[k];
      }
    }
  }

  /** The listed events are exactly the stored ones, in ascending id order. */
  lemma {:induction false} EventValues(events: EventTable, nextId: nat)
    requires EventsWellFormed(events, nextId)
    ensures forall ev :: ev in events.Values() <==> ev.id in events.entries && events.entries[ev.id] == ev
    ensures forall i, j :: 0 <= i < j < |events.Values()| ==> events.Values()[i].id < events.Values()[j].id
  {
    var r := events.Values();
    forall ev: Event | ev.id in events.entries && events.entries[ev.id] == ev ensures ev in r {
      var i :| 0 <= i < |events.keys| && events.keys[i] == ev.id;
      assert r[i] == ev;
    }
    forall i, j | 0 <= i < j < |r| ensures r[i].id < r[j].id {
      assert events.keys[i] in events.entries && events.keys[j] in events.entries;
    }
  }

  /** Creating an event keeps the invariant. */
  lemma {:induction false} CreatePreserves(events: EventTable, seats: SeatTable, nextId: nat, ins: InsertEvent)
    requires StoreInvariant(events, seats, nextId)
    ensures nextId !in events.entries
    ensures StoreInvariant(events.Set(nextId, NewEvent(ins, nextId)),
                           PutAll(seats, Expand(nextId, ins.configuration)), nextId + 1)
  {
    var ev := NewEvent(ins, nextId);
    var events' := events.Set(nextId, ev);
    EventsAfterCreate(events, nextId, ev);
    ExpandShape(nextId, ins.configuration);
    forall e' | e' in events'.entries && e' != nextId
      ensures EventSeatIds(seats.entries, e') == LayoutIds(e', events'.entries[e'].configuration)
    {
      assert events'.Get(e') == events.Get(e');
    }
    LayoutWritten(events', seats, Expand(nextId, ins.configuration), nextId, ins.configuration);
  }

  lemma {:induction false} WithoutIncreasing(ks: seq<nat>, k: nat)
    requires Increasing(ks)
    ensures Increasing(Without(ks, k))
    decreases |ks|
  {
    if ks != [] {
      var p := ks[..|ks| - 1];
      WithoutIncreasing(p, k);
      var w := Without(p, k);
      var last := ks[|ks| - 1];
      forall x | x in w ensures x < last {
        var i :| 0 <= i < |p| && p[i] == x;
      }
      if last != k {
        assert Without(ks, k) == w + [last];
        forall i, j | 0 <= i < j < |w| + 1 ensures (w + [last])[i] < (w + [last])[j] {
          if j == |w| {
            assert w[i] in w;
          }
        }
      }
    }
  }

  /** Deleting an event together with its seats keeps the invariant. */
  lemma {:induction false} DeletePreserves(events: EventTable, seats: SeatTable, nextId: nat, id: nat)
    requires StoreInvariant(events, seats, nextId)
    ensures StoreInvariant(events.Delete(id), WithoutEvent(seats, id), nextId)
  {
    WithoutIncreasing(events.keys, id);
    WithoutEventEffect(seats, id);
  }

  /** Carrying statuses over changes neither the ids nor the owner of the layout's seats. */
  lemma {:induction false} CarriedLayout(prior: map<string, Seat>, e: nat, c: EventConfiguration)
    ensures forall s :: s in CarryAll(prior, Expand(e, c)) ==> s.eventId == e && s.id == SeatKey(e, s.seatLabel)
    ensures IdsOf(CarryAll(prior, Expand(e, c))) == IdsOf(Expand(e, c))
  {
    var ss := CarryAll(prior, Expand(e, c));
    ExpandShape(e, c);
    forall s | s in ss ensures s.eventId == e && s.id == SeatKey(e, s.seatLabel) {
      var i :| 0 <= i < |ss| && ss[i] == s;
      assert Expand(e, c)[i] in Expand(e, c);
    }
  }

  /** Removing one event's seats leaves a well-formed table without them, other events untouched. */
  lemma {:induction false} WithoutEventEffect(seats: SeatTable, e: nat)
    requires SeatsWellFormed(seats)
    ensures SeatsWellFormed(WithoutEvent(seats, e))
    ensures forall k :: k in WithoutEvent(seats, e).entries ==> WithoutEvent(seats, e).entries[k].eventId != e
    ensures forall e' :: e' != e ==> EventSeatIds(WithoutEvent(seats, e).entries, e') == EventSeatIds(seats.entries, e')
  {
  }

  /** Reconciling an existing event with its new configuration keeps the invariant. */
  lemma {:induction false} RegeneratePreserves(events: EventTable, seats: SeatTable, nextId: nat, ev: Event)
    requires StoreInvariant(events, seats, nextId)
    requires ev.id in events.entries
    ensures StoreInvariant(events.Set(ev.id, ev), Regenerated(seats, ev.id, ev.configuration), nextId)
  {
    var e := ev.id;
    var events' := events.Set(e, ev);
    var base := WithoutEvent(seats, e);
    var prior := SeatsById(SeatsOf(seats, e));
    CarriedLayout(prior, e, ev.configuration);
    WithoutEventEffect(seats, e);
    forall e' | e' in events'.entries && e' != e
      ensures EventSeatIds(base.entries, e') == LayoutIds(e', events'.entries[e'].configuration)
    {
      assert events'.Get(e') == events.Get(e');
    }
    LayoutWritten(events', base, CarryAll(prior, Expand(e, ev.configuration)), e, ev.configuration);
  }

  /** A table rewritten in its statuses only is as well formed as before and groups the same ids per event. */
  lemma {:induction false} StatusOnlyEffect(seats: SeatTable, seats': SeatTable)
    requires SeatsWellFormed(seats)
    requires seats'.keys == seats.keys && seats'.entries.Keys == seats.entries.Keys
    requires forall k :: k in seats'.entries ==> seats'.entries[k] == seats.entries[k].(status := seats'.entries[k].status)
    ensures SeatsWellFormed(seats')
    ensures forall k :: k in seats'.entries ==> seats'.entries[k].eventId == seats.entries[k].eventId
    ensures forall e :: EventSeatIds(seats'.entries, e) == EventSeatIds(seats.entries, e)
  {
    forall e ensures EventSeatIds(seats'.entries, e) == EventSeatIds(seats.entries, e) {
    }
  }

  /** Writes that change only statuses keep the invariant. */
  lemma {:induction false} StatusOnlyPreserves(events: EventTable, seats: SeatTable, seats': SeatTable, nextId: nat)
    requires StoreInvariant(events, seats, nextId)
    requires seats'.keys == seats.keys && seats'.entries.Keys == seats.entries.Keys
    requires forall k :: k in seats'.entries ==> seats'.entries[k] == seats.entries[k].(status := seats'.entries[k].status)
    ensures StoreInvariant(events, seats', nextId)
  {
    StatusOnlyEffect(seats, seats');
  }

  /** Changing an event's name, date or venue but not its configuration keeps the invariant. */
  lemma {:induction false} MetadataPreserves(events: EventTable, seats: SeatTable, nextId: nat, ev: Event)
    requires StoreInvariant(events, seats, nextId)
    requires ev.id in events.entries && events.entries[ev.id].configuration == ev.configuration
    ensures StoreInvariant(events.Set(ev.id, ev), seats, nextId)
  {
    var events' := events.Set(ev.id, ev);
    assert forall e :: e in events'.entries ==> e in events.entries;
  }

  /** Updating a stored event keeps the invariant, whether or not its configuration changes. */
  lemma {:induction false} UpdatePreserves(events: EventTable, seats: SeatTable, nextId: nat, id: nat, u: EventUpdate)
    requires StoreInvariant(events, seats, nextId)
    requires id in events.entries
    ensures var ev := Merge(events.entries[id], u);
      StoreInvariant(events.Set(id, ev), if u.configuration.Some? then Regenerated(seats, id, ev.configuration) else seats, nextId)
  {
    var ev := Merge(events.entries[id], u);
    if u.configuration.Some? {
      RegeneratePreserves(events, seats, nextId, ev);
    } else {
      MetadataPreserves(events, seats, nextId, ev);
    }
  }

  /** One more seat of a row is one more `set`. */
  lemma {:induction false} PutRowStep(t: SeatTable, prior: map<string, Seat>, e: nat, zone: string, section: string, row: string, i: nat)
    requires i >= 1
    ensures PutAll(t, CarryAll(prior, RowSeats(e, zone, section, row, i)))
         == PutAll(t, CarryAll(prior, RowSeats(e, zone, section, row, i - 1)))
              .Set(SeatKey(e, SeatLabel(zone, section, row, NatToString(i))),
                   Carry(prior, MakeSeat(e, zone, section, row, i)))
  {
    var before := CarryAll(prior, RowSeats(e, zone, section, row, i - 1));
    var seat := Carry(prior, MakeSeat(e, zone, section, row, i));
    CarryAllConcat(prior, RowSeats(e, zone, section, row, i - 1), [MakeSeat(e, zone, section, row, i)]);
    assert (before + [seat])[..|before|] == before;
  }

  // ---------------------------------------------------------------------------------------
  // The generator loops: zone by zone, section by section, row by row, seat 1 first

  /** Writing a concatenation with statuses carried is writing its two parts in turn. */
  lemma {:induction false} PutCarriedConcat(t: SeatTable, prior: map<string, Seat>, a: seq<Seat>, b: seq<Seat>)
    ensures PutAll(t, CarryAll(prior, a + b)) == PutAll(PutAll(t, CarryAll(prior, a)), CarryAll(prior, b))
  {
    CarryAllConcat(prior, a, b);
    PutAllConcat(t, CarryAll(prior, a), CarryAll(prior, b));
  }

  lemma {:induction false} ExpandZonesStep(eventId: nat, zones: seq<ZoneConfig>, z: nat)
    requires z < |zones|
    ensures ExpandZones(eventId, zones[..z + 1])
         == ExpandZones(eventId, zones[..z]) + ExpandSections(eventId, zones[z].name, zones[z].sections)
  {
    assert zones[..z + 1][..z] == zones[..z];
  }

  lemma {:induction false} ExpandSectionsStep(eventId: nat, zone: string, sections: seq<SectionConfig>, j: nat)
    requires j < |sections|
    ensures ExpandSections(eventId, zone, sections[..j + 1])
         == ExpandSections(eventId, zone, sections[..j]) + ExpandRows(eventId, zone, sections[j].name, sections[j].rows)
  {
    assert sections[..j + 1][..j] == sections[..j];
  }

  lemma {:induction false} ExpandRowsStep(eventId: nat, zone: string, section: string, rows: seq<RowConfig>, j: nat)
    requires j < |rows|
    ensures ExpandRows(eventId, zone, section, rows[..j + 1])
         == ExpandRows(eventId, zone, section, rows[..j]) + RowSeats(eventId, zone, section, rows[j].rowLabel, rows[j].seatCount)
  {
    assert rows[..j + 1][..j] == rows[..j];
  }

  /** Writes a layout into `t`, each seat taking its status from `prior` when its id is there. */
  lemma {:induction false} ZoneStep(t: SeatTable, prior: map<string, Seat>, eventId: nat, zones: seq<ZoneConfig>, z: nat, before: SeatTable, after: SeatTable)
    requires z < |zones|
    requires before == PutAll(t, CarryAll(prior, ExpandZones(eventId, zones[..z])))
    requires after == PutAll(before, CarryAll(prior, ExpandSections(eventId, zones[z].name, zones[z].sections)))
    ensures after == PutAll(t, CarryAll(prior, ExpandZones(eventId, zones[..z + 1])))
  {
    ExpandZonesStep(eventId, zones, z);
    PutCarriedConcat(t, prior, ExpandZones(eventId, zones[..z]), ExpandSections(eventId, zones[z].name, zones[z].sections));
  }

  method PutLayout(t: SeatTable, eventId: nat, zones: seq<ZoneConfig>, prior: map<string, Seat>) returns (r: SeatTable)
    ensures r == PutAll(t, CarryAll(prior, ExpandZones(eventId, zones)))
  {
    r := t;
    for z := 0 to |zones|
      invariant r == PutAll(t, CarryAll(prior, ExpandZones(eventId, zones[..z])))
    {
      var next := PutZone(r, eventId, zones[z], prior);
      ZoneStep(t, prior, eventId, zones, z, r, next);
      r := next;
    }
    assert zones[..|zones|] == zones;
  }

  method PutZone(t: SeatTable, eventId: nat, zone: ZoneConfig, prior: map<string, Seat>) returns (r: SeatTable)
    ensures r == PutAll(t, CarryAll(prior, ExpandSections(eventId, zone.name, zone.sections)))
  {
    var sections := zone.sections;
    r := t;
    for j := 0 to |sections|
      invariant r == PutAll(t, CarryAll(prior, ExpandSections(eventId, zone.name, sections[..j])))
    {
      r := PutSection(r, eventId, zone.name, sections[j], prior);
      ExpandSectionsStep(eventId, zone.name, sections, j);
      PutCarriedConcat(t, prior, ExpandSections(eventId, zone.name, sections[..j]), ExpandRows(eventId, zone.name, sections[j].name, sections[j].rows));
    }
    assert sections[..|sections|] == sections;
  }

  method PutSection(t: SeatTable, eventId: nat, zone: string, section: SectionConfig, prior: map<string, Seat>) returns (r: SeatTable)
    ensures r == PutAll(t, CarryAll(prior, ExpandRows(eventId, zone, section.name, section.rows)))
  {
    var rows := section.rows;
    r := t;
    for j := 0 to |rows|
      invariant r == PutAll(t, CarryAll(prior, ExpandRows(eventId, zone, section.name, rows[..j])))
    {
      r := PutRow(r, eventId, zone, section.name, rows[j], prior);
      ExpandRowsStep(eventId, zone, section.name, rows, j);
      PutCarriedConcat(t, prior, ExpandRows(eventId, zone, section.name, rows[..j]), RowSeats(eventId, zone, section.name, rows[j].rowLabel, rows[j].seatCount));
    }
    assert rows[..|rows|] == rows;
  }

  /** Seats `1..seatCount` of one row, numbered from 1. */
  method PutRow(t: SeatTable, eventId: nat, zone: string, section: string, row: RowConfig, prior: map<string, Seat>) returns (r: SeatTable)
    ensures r == PutAll(t, CarryAll(prior, RowSeats(eventId, zone, section, row.rowLabel, row.seatCount)))
  {
    r := t;
    for i := 1 to row.seatCount + 1
      invariant r == PutAll(t, CarryAll(prior, RowSeats(eventId, zone, section, row.rowLabel, i - 1)))
    {
      var l := SeatLabel(zone, section, row.rowLabel, NatToString(i));
      var seatId := SeatKey(eventId, l);
      var status := if seatId in prior then prior[seatId].status else Available;
      var seat := Seat(seatId, eventId, status, None, l);
      PutRowStep(t, prior, eventId, zone, section, row.rowLabel, i);
      r := r.Set(seatId, seat);
    }
  }

  // ---------------------------------------------------------------------------------------
  // The per-seat loops of deletion and status writes

  /** Walks the seat table in key order, deleting every seat of event `e` it meets. */
  method RemoveEventSeats(t: SeatTable, e: nat) returns (r: SeatTable)
    requires t.Valid()
    ensures r == WithoutEvent(t, e)
  {
    r := t;
    var ks := t.keys;
    ScannedStart(t, e);
    for i := 0 to |ks|
      invariant r == Scanned(t, e, i)
    {
      var seatId := ks[i];
      ScannedStep(t, e, i);
      var seat := r.entries[seatId];
      if seat.eventId == e {
        r := r.Delete(seatId);
      }
    }
    ScannedAll(t, e);
  }

  /** One requested id handled: both loop facts move on to the next id. */
  lemma {:induction false} WriteStep(t: SeatTable, e: nat, ids: seq<string>, i: nat, st: SeatStatus,
                                     r: SeatTable, written: seq<Seat>, r': SeatTable, written': seq<Seat>)
    requires i < |ids|
    requires r.keys == t.keys && r.entries == StatusWritten(t.entries, e, ids[..i], st)
    requires written == WrittenList(t.entries, e, ids[..i], st)
    requires if ids[i] in r.entries && r.entries[ids[i]].eventId == e
             then r' == r.Set(ids[i], r.entries[ids[i]].(status := st)) && written' == written + [r.entries[ids[i]].(status := st)]
             else r' == r && written' == written
    ensures r'.keys == t.keys && r'.entries == StatusWritten(t.entries, e, ids[..i + 1], st)
    ensures written' == WrittenList(t.entries, e, ids[..i + 1], st)
  {
    assert ids[..i + 1] == ids[..i] + [ids[i]];
    StatusWrittenStep(t.entries, r.entries, e, ids[..i], ids[i], st);
    WrittenListStep(t.entries, r.entries, e, ids[..i], ids[i], st);
  }

  /**
   * For each id in order: a stored seat of event `e` gets status `st` and is appended to the
   * returned list; any other id is skipped.
   */
  method WriteStatuses(t: SeatTable, e: nat, ids: seq<string>, st: SeatStatus) returns (r: SeatTable, written: seq<Seat>)
    ensures r.keys == t.keys
    ensures r.entries == StatusWritten(t.entries, e, ids, st)
    ensures written == WrittenList(t.entries, e, ids, st)
  {
    r := t;
    written := [];
    StatusWrittenNone(t.entries, e, st);
    for i := 0 to |ids|
      invariant r.keys == t.keys
      invariant r.entries == StatusWritten(t.entries, e, ids[..i], st)
      invariant written == WrittenList(t.entries, e, ids[..i], st)
    {
      var id := ids[i];
      var seat := r.Get(id);
      var r', written' := r, written;
      if seat.Some? && seat.value.eventId == e {
        var updatedSeat := seat.value.(status := st);
        r' := r.Set(id, updatedSeat);
        written' := written + [updatedSeat];
      }
      WriteStep(t, e, ids, i, st, r, written, r', written');
      r, written := r', written';
    }
    assert ids[..|ids|] == ids;
  }

  /** One listed seat reset: both loop facts move on to the next seat. */
  lemma {:induction false} ResetStep(t: SeatTable, e: nat, ss: seq<Seat>, i: nat,
                                     r: SeatTable, reset: seq<Seat>, r': SeatTable, reset': seq<Seat>)
    requires SeatsWellFormed(t) && ss == SeatsOf(t, e) && i < |ss|
    requires r.keys == t.keys && r.entries == StatusWritten(t.entries, e, IdsOf(ss[..i]), Available)
    requires reset == WithStatus(ss[..i], Available)
    requires r' == r.Set(ss[i].id, ss[i].(status := Available)) && reset' == reset + [ss[i].(status := Available)]
    ensures r'.keys == t.keys && r'.entries == StatusWritten(t.entries, e, IdsOf(ss[..i + 1]), Available)
    ensures reset' == WithStatus(ss[..i + 1], Available)
  {
    assert ss[i] in ss;
    ListedSeat(t, e, ss[i]);
    ListedStep(t.entries, e, ss, i, r.entries, Available);
    WithStatusStep(ss, i, Available);
  }

  /** Lists the seats of event `e`, then makes each of them available; returns them in listing order. */
  method ResetEventSeats(t: SeatTable, e: nat) returns (r: SeatTable, reset: seq<Seat>)
    requires SeatsWellFormed(t)
    ensures r.keys == t.keys
    ensures r.entries == StatusWritten(t.entries, e, t.keys, Available)
    ensures reset == WithStatus(SeatsOf(t, e), Available)
  {
    var eventSeats := SeatsOf(t, e);
    r := t;
    reset := [];
    assert IdsOf(eventSeats[..0]) == [];
    StatusWrittenNone(t.entries, e, Available);
    for i := 0 to |eventSeats|
      invariant r.keys == t.keys
      invariant r.entries == StatusWritten(t.entries, e, IdsOf(eventSeats[..i]), Available)
      invariant reset == WithStatus(eventSeats[..i], Available)
    {
      var seat := eventSeats[i];
      var updatedSeat := seat.(status := Available);
      var r' := r.Set(seat.id, updatedSeat);
      var reset' := reset + [updatedSeat];
      ResetStep(t, e, eventSeats, i, r, reset, r', reset');
      r, reset := r', reset';
    }
    assert eventSeats[..|eventSeats|] == eventSeats;
    ResetCoversEvent(t, e);
  }

  // ---------------------------------------------------------------------------------------
  // The store

  class MemStorage {
    var events: EventTable
    var seats: SeatTable
    var currentId: nat

    ghost predicate Valid()
      reads this
    {
      StoreInvariant(events, seats, currentId)
    }

    /** Both tables empty, numbering starts at 1. */
    constructor()
      ensures Valid()
      ensures events.keys == [] && seats.keys == [] && currentId == 1
    {
      events := EmptyMap();
      seats := EmptyMap();
      currentId := 1;
    }

    /** Every stored event, oldest first. */
    function GetEvents(): (r: seq<Event>)
      reads this
      requires Valid()
      ensures forall ev :: ev in r <==> ev.id in events.entries && events.entries[ev.id] == ev
      ensures forall i, j :: 0 <= i < j < |r| ==> r[i].id < r[j].id
    {
      EventValues(events, currentId);
      events.Values()
    }

    /** The event stored under `id`, if any. */
    function GetEvent(id: nat): (r: Option<Event>)
      reads this
      requires Valid()
      ensures r.Some? <==> id in events.entries
      ensures r.Some? ==> r.value.id == id && r.value in GetEvents()
    {
      events.Get(id)
    }

    /** The seats of one event, in the seat map's key order. */
    function GetSeats(eventId: nat): (r: seq<Seat>)
      reads this
      requires Valid()
      ensures forall s :: s in r <==> s.id in seats.entries && seats.entries[s.id] == s && s.eventId == eventId
      ensures Distinct(IdsOf(r))
      ensures IdsOf(r) == SelectKeys(seats.keys, seats.entries, eventId, true)
    {
      ValuesOfWellFormed(seats);
      FilterEventDistinct(seats.Values(), eventId);
      SeatsOfKeyOrder(seats, eventId);
      SeatsOf(seats, eventId)
    }

    /** Stores the request under the next id and generates the seats its configuration describes. */
    method CreateEvent(ins: InsertEvent) returns (ev: Event)
      requires Valid()
      modifies this
      ensures Valid()
      ensures ev == NewEvent(ins, old(currentId)) && ev.id !in old(events.entries)
      ensures currentId == old(currentId) + 1
      ensures events == old(events).Set(ev.id, ev)
      ensures seats == PutAll(old(seats), Expand(ev.id, ev.configuration))
    {
      var id := currentId;
      currentId := currentId + 1;
      ev := NewEvent(ins, id);
      CreatePreserves(events, seats, id, ins);
      events := events.Set(id, ev);
      GenerateSeatsForEvent(ev);
    }

    /**
     * Merges the update into the stored event; a new configuration also reconciles the seats.
     * An unknown id fails and changes nothing.
     */
    method UpdateEvent(id: nat, u: EventUpdate) returns (r: Result<Event, string>)
      requires Valid()
      modifies this
      ensures Valid()
      ensures currentId == old(currentId)
      ensures id !in old(events.entries) ==>
        r == Failure("Event not found") && events == old(events) && seats == old(seats)
      ensures id in old(events.entries) ==>
        && r == Success(Merge(old(events.entries[id]), u))
        && events == old(events).Set(id, r.value)
        && seats == if u.configuration.Some? then Regenerated(old(seats), id, r.value.configuration) else old(seats)
    {
      var existing := events.Get(id);
      if existing.None? {
        return Failure("Event not found");
      }
      var updated := Merge(existing.value, u);
      UpdatePreserves(events, seats, currentId, id, u);
      events := events.Set(id, updated);
      if u.configuration.Some? {
        RegenerateSeatsPreservingStatus(updated);
      }
      return Success(updated);
    }

    /** Removes the event and every seat of it; an unknown id is harmless. */
    method DeleteEvent(id: nat)
      requires Valid()
      modifies this
      ensures Valid()
      ensures events == old(events).Delete(id) && seats == WithoutEvent(old(seats), id)
      ensures currentId == old(currentId)
    {
      DeletePreserves(events, seats, currentId, id);
      events := events.Delete(id);
      seats := RemoveEventSeats(seats, id);
    }

    /**
     * Gives each requested seat that exists and belongs to the event the requested status,
     * in request order, and returns the rewritten seats.
     */
    method UpdateSeats(eventId: nat, req: UpdateSeatStatusRequest) returns (updated: seq<Seat>)
      requires Valid()
      modifies this
      ensures Valid()
      ensures events == old(events) && currentId == old(currentId)
      ensures seats.keys == old(seats.keys)
      ensures seats.entries == StatusWritten(old(seats.entries), eventId, req.ids, req.status)
      ensures updated == WrittenList(old(seats.entries), eventId, req.ids, req.status)
    {
      ghost var t := seats;
      var r;
      r, updated := WriteStatuses(seats, eventId, req.ids, req.status);
      seats := r;
      StatusOnlyPreserves(events, t, seats, currentId);
    }

    /** Makes every seat of the event available and returns them, in listing order. */
    method ResetSeats(eventId: nat) returns (reset: seq<Seat>)
      requires Valid()
      modifies this
      ensures Valid()
      ensures events == old(events) && currentId == old(currentId)
      ensures seats.keys == old(seats.keys)
      ensures seats.entries == StatusWritten(old(seats.entries), eventId, old(seats.keys), Available)
      ensures reset == WithStatus(old(GetSeats(eventId)), Available)
    {
      ghost var t := seats;
      var r;
      r, reset := ResetEventSeats(seats, eventId);
      seats := r;
      StatusOnlyPreserves(events, t, seats, currentId);
    }

    // --- helpers ---

    /** Writes the seats of a fresh layout, all available. */
    method GenerateSeatsForEvent(ev: Event)
      modifies this
      ensures seats == PutAll(old(seats), Expand(ev.id, ev.configuration))
      ensures events == old(events) && currentId == old(currentId)
    {
      seats := PutLayout(seats, ev.id, ev.configuration.zones, map[]);
      ExpandShape(ev.id, ev.configuration);
      CarryNothing(Expand(ev.id, ev.configuration));
    }

    /** Drops the event's seats and writes its new layout, keeping old statuses by id. */
    method RegenerateSeatsPreservingStatus(ev: Event)
      requires seats.Valid()
      modifies this
      ensures seats == Regenerated(old(seats), ev.id, ev.configuration)
      ensures events == old(events) && currentId == old(currentId)
    {
      var current := seats;
      var oldSeats := SeatsById(SeatsOf(current, ev.id));
      var cleared := RemoveEventSeats(current, ev.id);
      var written := PutLayout(cleared, ev.id, ev.configuration.zones, oldSeats);
      seats := written;
    }
  }
}

=== FILE: store_facts.dfy ===
/**
 * What the store's writes mean for its readers: which seats `getSeats` lists after an event is
 * created, deleted or reconciled, and what the status writes leave behind.
 */
module StoreFacts {
  import opened Wrappers
  import opened Schema
  import opened Layout
  import opened OrderedMaps
  import opened SeatTables
  import opened Storage

  // ---------------------------------------------------------------------------------------
  // Deleting an event

  /** A key list keeps every key when none of them is of the selected kind to drop. */
  lemma {:induction false} SelectKeysAll(ks: seq<string>, entries: map<string, Seat>, e: nat)
    requires forall k :: k in ks ==> k in entries && entries[k].eventId != e
    ensures SelectKeys(ks, entries, e, false) == ks
    decreases |ks|
  {
    if ks != [] {
      SelectKeysAll(ks[..|ks| - 1], entries, e);
      assert ks[..|ks| - 1] + [ks[|ks| - 1]] == ks;
    }
  }

  /** Once an event's seats are deleted, listing that event's seats gives nothing. */
  lemma {:induction false} DeletedEventHasNoSeats(t: SeatTable, e: nat)
    requires t.Valid()
    ensures SeatsOf(WithoutEvent(t, e), e) == []
  {
    var w := WithoutEvent(t, e);
    var vs := w.Values();
    forall s | s in vs ensures s.eventId != e {
      var i :| 0 <= i < |vs| && vs[i] == s;
      assert w.keys[i] in w.entries;
    }
    FilterEventNone(vs, e);
  }

  /** Deleting an event leaves every other event's listed seats as they were, in the same order. */
  lemma {:induction false} DeleteKeepsOtherSeats(t: SeatTable, e: nat, e': nat)
    requires SeatsWellFormed(t) && e' != e
    ensures SeatsOf(WithoutEvent(t, e), e') == SeatsOf(t, e')
    ensures forall s :: s in SeatsOf(WithoutEvent(t, e), e') <==> s.id in t.entries && t.entries[s.id] == s && s.eventId == e'
  {
    WithoutEventListing(t, e, e');
    ValuesOfWellFormed(t);
  }

  /** Deleting the seats of an event that owns none leaves the table as it was, order included. */
  lemma {:induction false} NoSeatsNoop(t: SeatTable, e: nat)
    requires t.Valid()
    requires forall k :: k in t.entries ==> t.entries[k].eventId != e
    ensures WithoutEvent(t, e) == t
  {
    SelectKeysAll(t.keys, t.entries, e);
    var w := WithoutEvent(t, e).entries;
    assert w.Keys == t.entries.Keys;
  }

  /** Deleting an id that names no event changes neither table. */
  lemma {:induction false} DeleteUnknownIsNoop(events: EventTable, seats: SeatTable, nextId: nat, id: nat)
    requires StoreInvariant(events, seats, nextId)
    requires id !in events.entries
    ensures events.Delete(id) == events
    ensures WithoutEvent(seats, id) == seats
  {
    assert id !in events.keys;
    WithoutAbsent(events.keys, id);
    assert events.entries - {id} == events.entries;
    NoSeatsNoop(seats, id);
  }

  // ---------------------------------------------------------------------------------------
  // Reconciling an event with a new configuration

  /**
   * After reconciliation a seat id is present exactly when the new layout generates it or it
   * belongs to another event. A layout seat keeps the status of the old seat with its id,
   * else it is available, and it never keeps a user. Other events' seats are untouched.
   */
  lemma {:induction false} RegeneratedSeat(t: SeatTable, e: nat, c: EventConfiguration, k: string)
    requires SeatsWellFormed(t)
    ensures k in Regenerated(t, e, c).entries
        <==> k in IdsOf(Expand(e, c)) || (k in t.entries && t.entries[k].eventId != e)
    ensures k in IdsOf(Expand(e, c)) ==>
      Regenerated(t, e, c).entries[k]
        == LastWithId(Expand(e, c), k).(status := if k in t.entries && t.entries[k].eventId == e
                                                  then t.entries[k].status else Available)
    ensures k !in IdsOf(Expand(e, c)) && k in t.entries && t.entries[k].eventId != e ==>
      Regenerated(t, e, c).entries[k] == t.entries[k]
  {
    var ss := Expand(e, c);
    var prior := SeatsById(SeatsOf(t, e));
    var base := WithoutEvent(t, e);
    SeatsByIdOfEvent(t, e);
    CarriedLayout(prior, e, c);
    PutAllLookup(base, CarryAll(prior, ss), k);
    if k in IdsOf(ss) {
      CarriedLast(prior, ss, k);
    }
  }

  // ---------------------------------------------------------------------------------------
  // Creating an event

  /** Ids generated for an event that owns no seat yet are all new to the table. */
  lemma {:induction false} ExpandIdsFresh(t: SeatTable, e: nat, c: EventConfiguration)
    requires SeatsWellFormed(t)
    requires forall k :: k in t.entries ==> t.entries[k].eventId != e
    ensures forall k :: k in IdsOf(Expand(e, c)) ==> k !in t.entries
  {
    var ss := Expand(e, c);
    ExpandShape(e, c);
    forall k | k in IdsOf(ss) && k in t.entries ensures false {
      var i :| 0 <= i < |ss| && IdsOf(ss)[i] == k;
      assert Generated(e, ss[i]);
      SeatKeyDeterminesEvent(e, ss[i].seatLabel, t.entries[k].eventId, t.entries[k].seatLabel);
    }
  }

  /** A later seat never shares the id of an earlier one when the ids are distinct. */
  lemma {:induction false} LaterIdsDiffer(ss: seq<Seat>, j: nat)
    requires Distinct(IdsOf(ss)) && j < |ss|
    ensures forall j' :: j < j' < |ss| ==> ss[j'].id != ss[j].id
  {
    var ids := IdsOf(ss);
    forall j' | j < j' < |ss| ensures ss[j'].id != ss[j].id {
      assert ids[j] != ids[j'];
    }
  }

  /** A key already stored is not touched by writing seats with new ids. */
  lemma {:induction false} PutFreshOld(t: SeatTable, ss: seq<Seat>, i: nat)
    requires t.Valid() && i < |t.keys|
    requires forall k :: k in IdsOf(ss) ==> k !in t.entries
    ensures t.keys[i] in PutAll(t, ss).entries && PutAll(t, ss).entries[t.keys[i]] == t.entries[t.keys[i]]
  {
    assert t.keys[i] in t.entries;
    PutAllLookup(t, ss, t.keys[i]);
  }

  /** With distinct ids, each written seat is what is stored under its id. */
  lemma {:induction false} PutFreshNew(t: SeatTable, ss: seq<Seat>, j: nat)
    requires Distinct(IdsOf(ss)) && j < |ss|
    ensures ss[j].id in PutAll(t, ss).entries && PutAll(t, ss).entries[ss[j].id] == ss[j]
  {
    LaterIdsDiffer(ss, j);
    LastWithIdAt(ss, j);
    PutAllLookup(t, ss, ss[j].id);
  }

  /** Position `i` of the listing after writing seats with new, distinct ids. */
  lemma {:induction false} PutFreshAt(t: SeatTable, ss: seq<Seat>, i: nat)
    requires t.Valid() && Distinct(IdsOf(ss))
    requires forall k :: k in IdsOf(ss) ==> k !in t.entries
    requires i < |t.keys| + |ss|
    ensures PutAll(t, ss).Valid() && |PutAll(t, ss).keys| == |t.keys| + |ss|
    ensures PutAll(t, ss).Values()[i] == (t.Values() + ss)[i]
  {
    PutAllFreshKeys(t, ss);
    if i < |t.keys| {
      PutFreshOld(t, ss, i);
    } else {
      PutFreshNew(t, ss, i - |t.keys|);
    }
  }

  /** Writing seats with new, distinct ids lists the old values, then the new seats in order. */
  lemma {:induction false} PutFreshValues(t: SeatTable, ss: seq<Seat>)
    requires t.Valid() && Distinct(IdsOf(ss))
    requires forall k :: k in IdsOf(ss) ==> k !in t.entries
    ensures PutAll(t, ss).Values() == t.Values() + ss
  {
    PutAllFreshKeys(t, ss);
    var vs, want := PutAll(t, ss).Values(), t.Values() + ss;
    forall i | 0 <= i < |want| ensures vs[i] == want[i] {
      PutFreshAt(t, ss, i);
    }
  }

  /**
   * When the layout's ids are distinct, the new event lists exactly its layout seats, in
   * generation order, one for every seat the rows count.
   */
  lemma {:induction false} CreatedSeatsListed(t: SeatTable, e: nat, c: EventConfiguration)
    requires SeatsWellFormed(t)
    requires forall k :: k in t.entries ==> t.entries[k].eventId != e
    requires Distinct(IdsOf(Expand(e, c)))
    ensures SeatsOf(PutAll(t, Expand(e, c)), e) == Expand(e, c)
    ensures |SeatsOf(PutAll(t, Expand(e, c)), e)| == TotalSeats(c)
  {
    var ss := Expand(e, c);
    ExpandShape(e, c);
    ExpandIdsFresh(t, e, c);
    PutFreshValues(t, ss);
    ValuesOfWellFormed(t);
    FilterAppended(t.Values(), ss, e);
  }

  /** Filtering an event's seats appended to seats of other events gives back the appended ones. */
  lemma {:induction false} FilterAppended(others: seq<Seat>, ss: seq<Seat>, e: nat)
    requires forall s :: s in others ==> s.eventId != e
    requires forall s :: s in ss ==> s.eventId == e
    ensures FilterEvent(others + ss, e) == ss
  {
    FilterEventConcat(others, ss, e);
    FilterEventNone(others, e);
    FilterEventAll(ss, e);
  }

  // ---------------------------------------------------------------------------------------
  // Status writes

  /**
   * The seats an update returns are exactly the requested, stored seats of the event, each with
   * the new status; seats of other events and unknown ids are skipped.
   */
  lemma {:induction false} WrittenListExact(entries: map<string, Seat>, e: nat, ids: seq<string>, st: SeatStatus)
    requires forall k :: k in entries ==> entries[k].id == k
    ensures forall s :: s in WrittenList(entries, e, ids, st) ==>
      s.id in ids && s.id in entries && entries[s.id].eventId == e && s == entries[s.id].(status := st)
    ensures forall k :: k in ids && k in entries && entries[k].eventId == e ==>
      entries[k].(status := st) in WrittenList(entries, e, ids, st)
    decreases |ids|
  {
    if ids != [] {
      var p, k := ids[..|ids| - 1], ids[|ids| - 1];
      WrittenListExact(entries, e, p, st);
      assert ids == p + [k];
      forall x | x in ids ensures x in p || x == k {
      }
    }
  }

  /** Every seat an update returns is what the table now holds under its id. */
  lemma {:induction false} WrittenSeatsStored(entries: map<string, Seat>, e: nat, ids: seq<string>, st: SeatStatus)
    requires forall k :: k in entries ==> entries[k].id == k
    ensures forall s :: s in WrittenList(entries, e, ids, st) ==>
      s.id in StatusWritten(entries, e, ids, st) && StatusWritten(entries, e, ids, st)[s.id] == s
  {
    WrittenListExact(entries, e, ids, st);
  }

  /** Repeating an update changes nothing more. */
  lemma {:induction false} StatusWrittenIdempotent(entries: map<string, Seat>, e: nat, ids: seq<string>, st: SeatStatus)
    ensures StatusWritten(StatusWritten(entries, e, ids, st), e, ids, st) == StatusWritten(entries, e, ids, st)
  {
    var once := StatusWritten(entries, e, ids, st);
    var twice := StatusWritten(once, e, ids, st);
    assert twice.Keys == once.Keys;
  }

  /** After a reset every seat of the event is available and every other seat is as it was. */
  lemma {:induction false} ResetMakesAvailable(t: SeatTable, e: nat)
    requires t.Valid()
    ensures forall k :: k in StatusWritten(t.entries, e, t.keys, Available) ==>
      var s := StatusWritten(t.entries, e, t.keys, Available)[k];
      if t.entries[k].eventId == e then s == t.entries[k].(status := Available) else s == t.entries[k]
  {
    assert forall k :: k in t.entries ==> k in t.keys;
  }
}

=== FILE: wrappers.dfy ===
/** Optional values and results, used for JavaScript's `undefined` and for thrown errors. */
module Wrappers {

  datatype Option<+T> = None | Some(value: T) {
    /** The value, or `default` when absent (JavaScript's `x || default` on an object). */
    function GetOr(default: T): T {
      match this
      case Some(v) => v
      case None => default
    }
  }

  datatype Result<+R, +E> = Success(value: R) | Failure(error: E)
}
